=== FILE: README.md ===
# Phone-case shop storefront, modelled in Dafny

This project models the client-side logic of a small React storefront for custom phone
cases. It covers five components.

- **Case editor** (`src/pages/Constructor/Constructor.tsx`). A fabric canvas holds a
  rounded "case" rectangle, with text boxes and pictures on top of it. The editor also has:
  - a selection, and a settings panel that edits the selected object;
  - responsive resizing that recreates the case;
  - a case colour picker;
  - a tool bar;
  - a save request whose outcome may send the user back to the catalog.
- **Cart reducers** (`src/App.tsx`). Add, remove, increase and decrease operate on a list
  of cart lines.
- **Catalog** (`src/pages/Catalog/Catalog.tsx`). It normalises the server's design
  records and builds the colour and model option lists. It also covers:
  - the price-range check and the product filter;
  - the digit-only price inputs and the reset button;
  - the add button, which is guarded by the price check.
- **Cart page** (`src/pages/Cart/Cart.tsx`). It computes the order total and decides when
  the buy button is disabled and when the empty-cart message shows. The page fetches its
  own cart from the server. The cart props that `App` passes are not used: the page's
  props declare only `onBack`. So the App reducers have no on-screen caller for remove,
  increase or decrease.
- **Login** (`src/pages/Auth/Auth.tsx`). The e-mail check is an equivalent of its regular
  expression. Login is two steps: send a code, then confirm it.

Modules:

- **Shared helpers.**
  - `Wrappers`: `Option`.
  - `Seqs`: order-preserving filter, distinct-in-first-occurrence-order, first index.
  - `Digits`: the `^\d+$` strings, their values, and JavaScript's decimal text of an
    integer.
- **One module per component:** `CartLines`, `CartPage`, `Catalog`, `Auth` and
  `Constructor`.
- **`Scene`:** the part of fabric's object collection the editor relies on.
  - `add` appends.
  - `remove` takes out the first object with the given identity.
  - `sendObjectToBack` moves that object to index 0.

Fabric objects are compared by identity in the source. Here each object carries a
natural-number `id`, and the editor hands out fresh ones from `nextId`. `caseRef` and the
selection hold identities, which are looked up on the canvas when needed.

Every scale the editor writes goes through fabric's object setter, and the model follows it
(`Scene.StoreScaleX`, `Scene.StoreScaleY`). A scale of 0 is stored as 0.0001. A negative
scale is stored as its magnitude and mirrors the object, which is why each object carries
`flipX` and `flipY`.

The editor's invariant is `Constructor.WellFormed`:

- the case is the bottom object and the only case;
- identities are distinct and older than `nextId`;
- the selection is a selectable object on the canvas.

Every editor operation preserves it. `Constructor.SessionInvariant` proves that it holds
after the mount effect followed by any sequence of user actions.

Three behaviours of the source are modelled as written.

- **The case colour on resize.** The mount effect's `createCase` captures the colour that
  was current at mount time. Every resize therefore recreates the case with the initial
  white, even after the user has picked another colour. A save still sends the picked
  colour (`Constructor.ResizeForgetsPickedColor`).
- **The colour effect.** The case is repainted only when `caseColor` changes. After a
  resize has restored the mount colour, picking the previous colour again does not repaint
  the case (`Constructor.RepickAfterResizeKeepsMountColor`).
- **The image tool button.** The button clicks the file input before React re-renders. The
  input exists only while the image tool is already active, so the first click from
  another tool does not open the picker (`Constructor.ChooseTool`).

## Model

| member | source | states |
|---|---|---|
| CartLines.AddToCart | src/App.tsx:18-29 | If the product is in the cart, its line gains one unit and nothing else changes. Otherwise one line of quantity 1 is appended after the old lines. The set of ids becomes the old set plus the product. Unique ids stay unique. |
| CartLines.AddToCartQuantities | src/App.tsx:18-29 | Adding a product raises its total quantity by exactly one and leaves every other product's quantity alone. |
| CartLines.RemoveFromCart | src/App.tsx:31-33 | The result holds exactly the old lines of other products, so no line of the removed id remains. Unique ids stay unique. |
| CartLines.RemoveFromCartOrder | src/App.tsx:31-33 | Removal keeps the surviving lines in cart order, each as often as before. It distributes over concatenation, and a single line survives exactly when it belongs to another product. |
| CartLines.RemoveFromCartQuantities | src/App.tsx:31-33 | After a removal the product's quantity is 0. Every other product's quantity is unchanged. |
| CartLines.Increase | src/App.tsx:34-40 | The lines of the id each gain one unit. Every other line is unchanged, and ids stay unique. |
| CartLines.IncreaseQuantities | src/App.tsx:34-40 | The product's quantity rises by one if it is in the cart and by zero otherwise. Other products are untouched. |
| CartLines.Decrease | src/App.tsx:41-49 | The lines of the id lose one unit, but only when they hold more than one; their name and price stay. No quantity drops below one, and other lines are unchanged. |
| CartLines.DecreaseUndoesIncrease | src/App.tsx:34-49 | On a cart whose quantities are all at least one, decreasing after increasing returns the original cart. |
| CartLines.IncreaseUndoesDecrease | src/App.tsx:34-49 | When every line of the id holds more than one unit, increasing after decreasing returns the original cart. |
| CartLines.CartCountIsLinesNotUnits | src/App.tsx:54 | The catalog badge counts lines. Adding a product already in the cart leaves the badge as it is, while the number of units grows by one. |
| CartPage.Total | src/pages/Cart/Cart.tsx:49-54 | With no cart loaded the total is 0. Otherwise it is the left-to-right sum of unit price times quantity. It is non-negative when all prices and quantities are. |
| CartPage.SumAppend | src/pages/Cart/Cart.tsx:49-54 | The total of two runs of items is the sum of their totals. |
| CartPage.SumNonNegative | src/pages/Cart/Cart.tsx:49-54 | Items with non-negative prices and quantities have a non-negative total. |
| CartPage.BuyDisabledAgreesWithTotal | src/pages/Cart/Cart.tsx:73-108 | For a loaded cart, the empty message shows exactly when the buy button is disabled. A disabled button always goes with a zero total. |
| Catalog.Normalize | src/pages/Catalog/Catalog.tsx:35-43 | Id and name are copied, and the price is the product's base price or 0. An empty or missing colour becomes "Без цвета". An empty model name becomes "Product " followed by the product id as `String` writes it: digits without leading zeros, a minus sign first for a negative id, "undefined" for a missing id and "null" for a JSON null. The image falls back to the design image, then the model photo, then the placeholder. None of colour, model or image is empty. |
| Catalog.LoadProducts | src/pages/Catalog/Catalog.tsx:28-53 | A failed fetch or a non-array body gives no products. So does an array in which any element lacks its design. Otherwise the result is one normalised product per element, in order. |
| Catalog.Options | src/pages/Catalog/Catalog.tsx:58-59 | The list is "Все" followed by each value exactly once, and holds nothing else. |
| Catalog.ColorOptionsOrder | src/pages/Catalog/Catalog.tsx:58 | Every product colour is offered, in the order the colours first appear among the products. |
| Catalog.ModelOptionsOrder | src/pages/Catalog/Catalog.tsx:59 | Every model name is offered, in the order the names first appear among the products. |
| Catalog.PriceErrorOrder | src/pages/Catalog/Catalog.tsx:60-67 | The checks fire in order: negative minimum, then negative maximum, then inverted range. The message is empty exactly when the bounds are non-negative and not inverted. |
| Catalog.FilterErrorNeverNegative | src/pages/Catalog/Catalog.tsx:60-86 | The price fields hold only digits, so the only possible message is the inverted-range one. It shows exactly when both fields are set and the minimum exceeds the maximum. |
| Catalog.FilteredProducts | src/pages/Catalog/Catalog.tsx:68-78 | Every product shown matches colour, model and both bounds. Every matching product is shown. |
| Catalog.FilteredProductsOrder | src/pages/Catalog/Catalog.tsx:68-78 | Filtering keeps catalog order: it distributes over concatenation and keeps one product exactly when it matches. |
| Catalog.InitialFiltersShowAll | src/pages/Catalog/Catalog.tsx:22-25 | The initial filters ("Все", "Все" and two empty price fields) show every product. |
| Catalog.InvertedRangeShowsNothing | src/pages/Catalog/Catalog.tsx:60-78 | While the price error shows, the product list is empty. |
| Catalog.MinPriceChanged | src/pages/Catalog/Catalog.tsx:79-82 | An empty or all-digit input replaces the minimum. Any other input leaves the filters unchanged. No other field changes. |
| Catalog.MaxPriceChanged | src/pages/Catalog/Catalog.tsx:83-86 | An empty or all-digit input replaces the maximum. Any other input leaves the filters unchanged. No other field changes. |
| Catalog.PriceInputBounds | src/pages/Catalog/Catalog.tsx:79-86 | Typing the decimal text of n sets that bound to n. A leading minus sign is refused. |
| Catalog.Reset | src/pages/Catalog/Catalog.tsx:128-133 | A reset sets both selects to "Все" and empties both price fields. Afterwards there is no price error and every product is shown. |
| Catalog.ClickAdd | src/pages/Catalog/Catalog.tsx:166-188 | While the price error shows, no request is sent and the cart is unchanged. Otherwise the request goes out, and only an accepted one adds the product. Unique ids stay unique. |
| Auth.EmailCheckMatchesPattern | src/pages/Auth/Auth.tsx:11-14 | The scan accepts a string exactly when `^[^\s@]+@[^\s@]+\.[^\s@]+$` matches it. |
| Auth.RejectedEmails | src/pages/Auth/Auth.tsx:11-14 | A string with white space, with no '@', or with two '@' is refused. |
| Auth.SendCode | src/pages/Auth/Auth.tsx:15-42 | An invalid address sends nothing. A valid one sends the request, and only an accepted reply moves to the code step. The typed fields never change. |
| Auth.ConfirmCode | src/pages/Auth/Auth.tsx:43-71 | A code shorter than 4 characters sends nothing. Otherwise the request goes out, and only an accepted reply authenticates. |
| Auth.Apply | src/pages/Auth/Auth.tsx:72-111 | Once authenticated, nothing changes. On the e-mail step, typing sets the address and "Отправить" does what `sendCode` does. On the code step, typing sets the code, "Подтвердить" does what `confirmCode` does, and "Назад" returns to the e-mail step. The controls of the other step do nothing. So authentication comes only from an accepted confirmation, and the code step only from an accepted send of a valid address. |
| Auth.LoginSucceeds | src/pages/Auth/Auth.tsx:15-71 | Typing any valid address, an accepted login request, any code of at least four characters and an accepted confirmation reach the shop. |
| Auth.AuthenticationNeedsBothSteps | src/pages/Auth/Auth.tsx:15-74 | From the initial state, the shop is reached only after an accepted login request followed later by an accepted confirmation. |
| Scene.Remove | src/pages/Constructor/Constructor.tsx:89 | Removing an absent identity changes nothing. Removing a present one drops exactly one object. Unique identities stay unique and the identity is gone. |
| Scene.RemoveIsFilter | src/pages/Constructor/Constructor.tsx:89 | Removing by identity keeps exactly the objects with other identities, in order. |
| Scene.StoreScaleX | src/pages/Constructor/Constructor.tsx:169-174 | What `set("scaleX", v)` stores: a positive scale, the magnitude of v or 0.0001 for 0, with the mirroring toggled exactly when v is negative. Nothing else changes. |
| Scene.StoreScaleY | src/pages/Constructor/Constructor.tsx:169-174 | The same for `set("scaleY", v)` on the vertical axis. |
| Scene.SendToBack | src/pages/Constructor/Constructor.tsx:94 | The result is a permutation of the stack. For an identity on the canvas, which is the only kind the editor sends, the object moves to index 0 and the rest keep their order. |
| Scene.AddThenSendToBack | src/pages/Constructor/Constructor.tsx:93-94 | Adding a new object and sending it to the back puts it under the old stack, which stays in order. |
| Constructor.CreateCase | src/pages/Constructor/Constructor.tsx:41-58 | The case has the given size and fill and radius 40. Its left/top are half its size, and it is neither selectable nor evented. |
| Constructor.Mount | src/pages/Constructor/Constructor.tsx:28-64 | Without a canvas element nothing happens. Otherwise the canvas takes the container size (600 by 400 without a container) and holds only the case, in the current colour, which is also recorded as the mount colour. |
| Constructor.Resize | src/pages/Constructor/Constructor.tsx:81-98 | Without a canvas element, canvas or container nothing happens. Otherwise the canvas takes the container size, the bottom object is a new case of that size in the mount colour, and `caseRef` names the new case. |
| Constructor.ResizeKeepsOthers | src/pages/Constructor/Constructor.tsx:81-98 | On a well-formed editor a resize swaps only the bottom object. Every other object stays as it was, in place. |
| Constructor.ResizeWellFormed | src/pages/Constructor/Constructor.tsx:81-98 | A resize preserves the editor invariant. |
| Constructor.ResizeTwiceCase | src/pages/Constructor/Constructor.tsx:81-98 | Two resizes to the same size each put a case of that size in the mount colour at the bottom. Only the identity differs. |
| Constructor.ResizeTwiceRest | src/pages/Constructor/Constructor.tsx:81-98 | A second resize to the same size leaves every object above the case as the first one left it. |
| Constructor.PickColor | src/pages/Constructor/Constructor.tsx:105-110 | `caseColor` records the picked colour. A new colour repaints only the case's fill; every other object and the canvas size are unchanged. Picking the colour already held changes nothing, because the effect keyed on `caseColor` does not run. |
| Constructor.PickColorWellFormed | src/pages/Constructor/Constructor.tsx:105-110 | Picking a colour preserves the invariant, and a new colour shows on the bottom case. |
| Constructor.RepickAfterResizeKeepsMountColor | src/pages/Constructor/Constructor.tsx:81-110 | Pick a colour, resize, then pick the same colour again: the case keeps the mount-time fill, because `caseColor` did not change. |
| Constructor.ResizeForgetsPickedColor | src/pages/Constructor/Constructor.tsx:81-110 | After a colour pick, a resize recreates the case in the mount-time colour. `caseColor`, which a save sends, keeps the picked colour. |
| Constructor.DefaultTextBox | src/pages/Constructor/Constructor.tsx:115-124 | The new text is "Ваш текст" in Arial, 14, black, at scale 1. Its left edge plus its width, and its top edge plus its height, land on the case's centre. |
| Constructor.AddText | src/pages/Constructor/Constructor.tsx:111-130 | Without a canvas or case nothing happens. Otherwise the default text box goes on top and becomes the selection. |
| Constructor.AddTextWellFormed | src/pages/Constructor/Constructor.tsx:111-130 | Adding text preserves the invariant. |
| Constructor.FittedImage | src/pages/Constructor/Constructor.tsx:144-153 | The image is scaled on each axis so that its rendered size is the case's size, with a missing dimension taken as 1. It sits at the case's position. The scales pass through fabric's setter: a case side of 0 gives the minimum scale 0.0001, and a negative one mirrors the image. |
| Constructor.InsertImage | src/pages/Constructor/Constructor.tsx:131-165 | No file, a failed decode, or a missing canvas or case changes nothing. Otherwise the fitted image is added, the case is re-sent to the back, and the image becomes the selection. |
| Constructor.InsertImageOnTop | src/pages/Constructor/Constructor.tsx:154-157 | On a well-formed editor the image lands on top of the unchanged stack, and the invariant is preserved. |
| Constructor.ImageCoversCase | src/pages/Constructor/Constructor.tsx:144-155 | The top object after an upload is a picture rendered exactly at the case's size. On a side where the case is 0 wide or high, the picture keeps the minimum scale. |
| Constructor.StaleDecodeFitsCurrentCase | src/pages/Constructor/Constructor.tsx:135-155 | A decode that finishes after a resize to a non-empty container fits the image to the new container size. |
| Constructor.UpdateSelected | src/pages/Constructor/Constructor.tsx:65-72 | Only the selection changes. Selecting nothing or a selectable object on the canvas keeps the editor well formed. |
| Constructor.SelectShowsObject | src/pages/Constructor/Constructor.tsx:65-72 | Selecting a selectable object on the canvas makes it the object the settings panel shows and edits, so the panel shows fields. |
| Constructor.SelectionCleared | src/pages/Constructor/Constructor.tsx:73-76 | Only the selection changes, to none. The panel shows no fields under the plain "НАСТРОЙКИ" title, every settings edit is then a no-op, and the invariant is kept. |
| Constructor.MouseDown | src/pages/Constructor/Constructor.tsx:65-76 | A press on a selectable object on the canvas selects it. Any other press clears the selection. The invariant is preserved, so the case is never selected. |
| Constructor.ApplyEdit | src/pages/Constructor/Constructor.tsx:169-174 | Position and angle read back the written value. A scale goes through fabric's setter: 0 is stored as 0.0001, and a negative scale is stored as its magnitude and toggles the mirroring on that axis. A font change on a text box sets the font and takes the re-measured size. Every other property, the identity and the kind stay as they were. |
| Constructor.ApplyEditTwice | src/pages/Constructor/Constructor.tsx:169-174 | Writing the same value twice leaves the object as one write does, except for a negative scale: the second write undoes the first one's mirroring. |
| Constructor.UpdateObject | src/pages/Constructor/Constructor.tsx:169-174 | Without a selection nothing changes. Otherwise the edit applies to the selected object and to no other. |
| Constructor.UpdateObjectWellFormed | src/pages/Constructor/Constructor.tsx:169-174 | An edit preserves the invariant, and the selected object afterwards is the edited one. |
| Constructor.Round | src/pages/Constructor/Constructor.tsx:255 | `Math.round` gives the integer n with n − ½ ≤ x < n + ½: the nearest integer, with halves rounded up (2.5 gives 3). |
| Constructor.EditWidth | src/pages/Constructor/Constructor.tsx:256-259 | With a selection of non-zero width, typing a width sets the horizontal scale to the requested width over the intrinsic width. |
| Constructor.EditHeight | src/pages/Constructor/Constructor.tsx:266-269 | With a selection of non-zero height, typing a height sets the vertical scale to the requested height over the intrinsic height. |
| Constructor.WidthEditRoundTrip | src/pages/Constructor/Constructor.tsx:253-260 | On an object of positive intrinsic width, typing a non-zero width makes it render at the magnitude of that width, so W shows it rounded. A negative width also mirrors the object, and 0 leaves the minimum scale. Height, mirroring on the other axis and intrinsic size are kept. |
| Constructor.HeightEditRoundTrip | src/pages/Constructor/Constructor.tsx:263-270 | On an object of positive intrinsic height, typing a non-zero height makes it render at the magnitude of that height, so H shows it rounded. A negative height also mirrors the object, and 0 leaves the minimum scale. Width, mirroring on the other axis and intrinsic size are kept. |
| Constructor.PanelOf | src/pages/Constructor/Constructor.tsx:233-310 | No selection shows no fields, and a text box shows the font fields. Anything else shows rounded X, Y, W, H and the angle. The font fields show the text box's family and size, with an empty family shown as Arial and a zero size as 14. |
| Constructor.TitleMatchesPanel | src/pages/Constructor/Constructor.tsx:176-181 | The title agrees with the panel's fields. In a well-formed editor the generic "НАСТРОЙКИ ОБЪЕКТА" never shows. |
| Constructor.ChooseTool | src/pages/Constructor/Constructor.tsx:360-380 | The active tool becomes the chosen one. The file picker opens only when the image tool is chosen while it is already active. |
| Constructor.ImageButtonOpensPickerOnSecondClick | src/pages/Constructor/Constructor.tsx:360-364 | From another tool, the first image-button click does not open the picker and the second does. |
| Constructor.ToolSwitchKeepsScene | src/pages/Constructor/Constructor.tsx:311-340 | Switching tools leaves the scene, the selection and the settings panel alone. Each tool has its own side panel. |
| Constructor.Rename | src/pages/Constructor/Constructor.tsx:343-347 | Typing the name replaces the design name and nothing else, so the invariant holds. Any later save sends exactly that name, the empty one included, with an outcome the rename does not affect. |
| Constructor.Save | src/pages/Constructor/Constructor.tsx:188-223 | Without a canvas nothing is sent. Otherwise the request carries product "1", the typed name and `caseColor`. Only a failure status other than 401 and 403 leaves the editor. The request field holds the form fields the save attempted; an exception before the upload counts as a thrown save. |
| Constructor.SaveIgnoresTool | src/pages/Constructor/Constructor.tsx:188-223 | The save request and its outcome do not depend on the active tool. |
| Constructor.StepWellFormed | src/pages/Constructor/Constructor.tsx:65-174 | Every user action preserves the invariant and the mount colour. |
| Constructor.SessionInvariant | src/pages/Constructor/Constructor.tsx:28-64 | After mounting and any actions, the editor is well formed. The case is the one bottom object and `caseRef` names it, and the mount colour is white. |

## Left out

- Network requests, `FileReader`, image decoding and PNG export. Their outcomes are
  parameters: `Fetch`, `Reply`, `Upload` and `SaveReply`. The `loading` flags and the
  "Загрузка..." screens are not modelled.
- Rendering, CSS, alerts and console logging.
- Page routing: the catalog/constructor/profile/cart switches, and `Profile.tsx` and
  `main.tsx`.
- The search box in the catalog header. It has no handler.
- Listener registration and disposal, React StrictMode's double mount, and the
  `forceUpdate` counter.
- Direct mouse manipulation of objects by fabric (moving, scaling and rotating), and the
  `object:*` events it fires. Only the mouse press that selects or clears is modelled.
- Constructor.DefaultTextBox: the box is created `editable`, so fabric lets the user double-click
  and retype its text, which changes the text and re-measures its size. That in-place editing
  is not modelled, so a text box always holds the default text.
- Multi-object selections: fabric's group selection is not modelled.
- Numbers are modelled as exact integers and reals, not IEEE doubles. `Number(text)` on the
  settings panel is the real it denotes, and the catalog's prices are integers.
- String lengths count code points. JavaScript counts UTF-16 units, which differ only
  outside the Basic Multilingual Plane (for the four-character code check and the e-mail
  pattern).
- Constructor.EditWidth: a selection whose intrinsic width is 0 is left unchanged. The
  source would set a scale of `Infinity` or `NaN`, which a real number cannot represent.
- Constructor.EditHeight: the same for an intrinsic height of 0.
- Scene.SendToBack: an identity that is not on the canvas leaves the stack unchanged. Fabric
  would insert such an object at the back, but the editor only sends objects it has on the
  canvas.
- Constructor.ApplyEdit: the size a text box takes after a font change is a parameter,
  because fabric's text layout and font metrics are not modelled. Scale normalisation uses
  fabric's default minimum scale limit of 0.
- Constructor.FittedImage: decoded image sizes are positive. A zero-size decode, which
  would give an infinite scale, is not modelled.
- Cart-page fetch failures keep the cart empty (`None`). A successful fetch with a
  malformed body is not modelled.

=== FILE: auth.dfy ===
/** The login page (src/pages/Auth/Auth.tsx): the e-mail check, the code-length check and
    the two-step "email, then code" state machine that ends in the authenticated shell. */
module Auth {
  import opened Seqs

  /** `\s` in a JavaScript regular expression: the ECMAScript white-space and line-terminator
      code points. */
  predicate IsWhitespace(c: char) {
    var n := c as int;
    || 9 <= n <= 13
    || n == 0x20 || n == 0xA0 || n == 0x1680
    || 0x2000 <= n <= 0x200A
    || n == 0x2028 || n == 0x2029 || n == 0x202F || n == 0x205F || n == 0x3000 || n == 0xFEFF
  }

  /** The character class `[^\s@]`. */
  predicate Plain(c: char) {
    !IsWhitespace(c) && c != '@'
  }

  predicate AllPlain(s: string) {
    forall i :: 0 <= i < |s| ==> Plain(s[i])
  }

  /** What it means for `/^[^\s@]+@[^\s@]+\.[^\s@]+$/` to match `s`: an '@' at `a` and a '.'
      at `d` cut `s` into three non-empty runs of `[^\s@]`. */
  ghost predicate MatchesEmailPattern(s: string) {
    exists a, d :: 0 < a && a + 1 < d && d + 1 < |s| && s[a] == '@' && s[d] == '.'
      && AllPlain(s[..a]) && AllPlain(s[a + 1..d]) && AllPlain(s[d + 1..])
  }

  function CountChar(s: string, c: char): nat {
    if |s| == 0 then 0 else (if s[0] == c then 1 else 0) + CountChar(s[1..], c)
  }

  lemma {:induction false} CountCharAppend(s: string, t: string, c: char)
    ensures CountChar(s + t, c) == CountChar(s, c) + CountChar(t, c)
  {
    if |s| == 0 {
      assert s + t == t;
    } else {
      assert (s + t)[1..] == s[1..] + t;
      CountCharAppend(s[1..], t, c);
    }
  }

  lemma {:induction false} CountCharZero(s: string, c: char)
    ensures CountChar(s, c) == 0 <==> forall i :: 0 <= i < |s| ==> s[i] != c
  {
    if |s| > 0 {
      CountCharZero(s[1..], c);
      assert forall i :: 1 <= i < |s| ==> s[i] == s[1..][i - 1];
    }
  }

  /** A '.' in `domain` that is neither its first nor its last character. */
  predicate HasInnerDot(domain: string) {
    exists k :: 0 < k < |domain| - 1 && domain[k] == '.'
  }

  /** `isValidEmail`, read as a scan: no white space, exactly one '@', something before it,
      and an inner '.' in the part after it. */
  predicate IsValidEmail(s: string) {
    && (forall i :: 0 <= i < |s| ==> !IsWhitespace(s[i]))
    && CountChar(s, '@') == 1
    && '@' in s
    && FirstIndex(s, '@') > 0
    && HasInnerDot(s[FirstIndex(s, '@') + 1..])
  }

  /** The scan accepts exactly the strings the regular expression matches. */
  lemma EmailCheckMatchesPattern(s: string)
    ensures IsValidEmail(s) <==> MatchesEmailPattern(s)
  {
    if IsValidEmail(s) {
      ValidEmailMatches(s);
    }
    if MatchesEmailPattern(s) {
      var a, d :| 0 < a && a + 1 < d && d + 1 < |s| && s[a] == '@' && s[d] == '.'
        && AllPlain(s[..a]) && AllPlain(s[a + 1..d]) && AllPlain(s[d + 1..]);
      PatternIsValidEmail(s, a, d);
    }
  }

  /** Counting around one occurrence of `c`. */
  lemma CountAround(s: string, a: nat, c: char)
    requires a < |s| && s[a] == c
    ensures CountChar(s, c) == CountChar(s[..a], c) + 1 + CountChar(s[a + 1..], c)
  {
    assert s == s[..a] + [s[a]] + s[a + 1..];
    CountCharAppend(s[..a] + [s[a]], s[a + 1..], c);
    CountCharAppend(s[..a], [s[a]], c);
    assert CountChar([s[a]], c) == 1;
  }

  lemma ValidEmailMatches(s: string)
    requires IsValidEmail(s)
    ensures MatchesEmailPattern(s)
  {
    var a := FirstIndex(s, '@');
    var domain := s[a + 1..];
    var k :| 0 < k < |domain| - 1 && domain[k] == '.';
    var d := a + 1 + k;
    CountAround(s, a, '@');
    CountCharZero(domain, '@');
    assert AllPlain(s[..a]) by {
      forall i | 0 <= i < a ensures Plain(s[..a][i]) {
        assert s[..a][i] == s[i];
      }
    }
    var mid, top := s[a + 1..d], s[d + 1..];
    assert AllPlain(mid) by {
      forall i | 0 <= i < |mid| ensures Plain(mid[i]) {
        assert mid[i] == domain[i];
      }
    }
    assert AllPlain(top) by {
      forall i | 0 <= i < |top| ensures Plain(top[i]) {
        assert top[i] == domain[k + 1 + i];
      }
    }
    assert 0 < a && a + 1 < d && d + 1 < |s| && s[a] == '@' && s[d] == '.';
  }

  lemma PatternIsValidEmail(s: string, a: nat, d: nat)
    requires 0 < a && a + 1 < d && d + 1 < |s| && s[a] == '@' && s[d] == '.'
    requires AllPlain(s[..a]) && AllPlain(s[a + 1..d]) && AllPlain(s[d + 1..])
    ensures IsValidEmail(s)
  {
    var domain := s[a + 1..];
    assert domain == s[a + 1..d] + [s[d]] + s[d + 1..];
    forall i | 0 <= i < |domain| ensures Plain(domain[i]) || domain[i] == '.' {
      if i < d - a - 1 {
        assert domain[i] == s[a + 1..d][i];
      } else if i > d - a - 1 {
        assert domain[i] == s[d + 1..][i - (d - a)];
      }
    }
    assert s == s[..a] + [s[a]] + domain;
    CountCharAppend(s[..a] + [s[a]], domain, '@');
    CountCharAppend(s[..a], [s[a]], '@');
    CountCharZero(s[..a], '@');
    CountCharZero(domain, '@');
    assert CountChar([s[a]], '@') == 1;
    var f := FirstIndex(s, '@');
    forall j | 0 <= j < a ensures s[j] != '@' {
      assert s[j] == s[..a][j];
    }
    assert f == a;
    assert domain[d - a - 1] == '.';
    forall i | 0 <= i < |s| ensures !IsWhitespace(s[i]) {
      if i < a {
        assert s[i] == s[..a][i];
      } else if i > a {
        assert s[i] == domain[i - a - 1];
      }
    }
  }

  /** Whatever else it contains, a string with white space, with no '@' or with two '@'s is
      refused. */
  lemma RejectedEmails(s: string, i: nat, j: nat)
    ensures i < |s| && IsWhitespace(s[i]) ==> !IsValidEmail(s)
    ensures (forall k :: 0 <= k < |s| ==> s[k] != '@') ==> !IsValidEmail(s)
    ensures i < j < |s| && s[i] == '@' && s[j] == '@' ==> !IsValidEmail(s)
  {
    if i < j < |s| && s[i] == '@' && s[j] == '@' {
      assert s == s[..j] + s[j..];
      CountCharAppend(s[..j], s[j..], '@');
      CountCharZero(s[..j], '@');
      CountCharZero(s[j..], '@');
      assert s[..j][i] == '@' && s[j..][0] == '@';
    }
  }

  datatype Step = EmailStep | CodeStep

  datatype AuthState = AuthState(step: Step, email: string, code: string, authenticated: bool)

  const Initial := AuthState(EmailStep, "", "", false)

  /** How a request ended: `response.ok`, or anything that reaches the `catch` (an error
      status, a network failure). */
  datatype Reply = Accepted | Refused

  /** The state after a button handler, and whether it sent a request. */
  datatype Attempt = Attempt(state: AuthState, requested: bool)

  /** `sendCode`: a malformed address sends nothing; otherwise the login request goes out
      and only an accepted one moves on to the code step. */
  function SendCode(s: AuthState, reply: Reply): (r: Attempt)
    ensures !IsValidEmail(s.email) ==> r == Attempt(s, false)
    ensures IsValidEmail(s.email) ==> r.requested
    ensures r.state.email == s.email && r.state.code == s.code && r.state.authenticated == s.authenticated
    ensures r.state.step == CodeStep <==> s.step == CodeStep || (IsValidEmail(s.email) && reply == Accepted)
  {
    if !IsValidEmail(s.email) then Attempt(s, false)
    else if reply == Accepted then Attempt(s.(step := CodeStep), true)
    else Attempt(s, true)
  }

  /** The minimum code length `confirmCode` insists on. */
  const MinCodeLength := 4

  /** `confirmCode`: a code shorter than four characters sends nothing (longer ones pass);
      only an accepted confirmation authenticates. */
  function ConfirmCode(s: AuthState, reply: Reply): (r: Attempt)
    ensures |s.code| < MinCodeLength ==> r == Attempt(s, false)
    ensures |s.code| >= MinCodeLength ==> r.requested
    ensures r.state.step == s.step && r.state.email == s.email && r.state.code == s.code
    ensures r.state.authenticated <==> s.authenticated || (|s.code| >= MinCodeLength && reply == Accepted)
  {
    if |s.code| < MinCodeLength then Attempt(s, false)
    else if reply == Accepted then Attempt(s.(authenticated := true), true)
    else Attempt(s, true)
  }

  /** What the user can do on the page. */
  datatype Event =
    | TypeEmail(text: string)
    | TypeCode(text: string)
    | ClickSend(reply: Reply)
    | ClickConfirm(reply: Reply)
    | ClickBack

  /** One user action. Each control exists only on its own step, and once authenticated the
      page is replaced by the shop, so nothing here reacts any more. */
  function Apply(s: AuthState, e: Event): (r: AuthState)
    ensures s.authenticated ==> r == s
    ensures r.authenticated && !s.authenticated ==> s.step == CodeStep && e == ClickConfirm(Accepted)
    ensures r.step == CodeStep && s.step == EmailStep ==> e == ClickSend(Accepted) && IsValidEmail(s.email)
    ensures e == ClickBack && s.step == CodeStep && !s.authenticated ==> r == s.(step := EmailStep)
    ensures !s.authenticated && s.step == EmailStep && e.TypeEmail? ==> r == s.(email := e.text)
    ensures !s.authenticated && s.step == CodeStep && e.TypeCode? ==> r == s.(code := e.text)
    ensures !s.authenticated && s.step == EmailStep && e.ClickSend? ==> r == SendCode(s, e.reply).state
    ensures !s.authenticated && s.step == CodeStep && e.ClickConfirm? ==> r == ConfirmCode(s, e.reply).state
    ensures s.step == EmailStep && (e.TypeCode? || e.ClickConfirm? || e.ClickBack?) ==> r == s
    ensures s.step == CodeStep && (e.TypeEmail? || e.ClickSend?) ==> r == s
  {
    if s.authenticated then s
    else
      match e
      case TypeEmail(t) => if s.step == EmailStep then s.(email := t) else s
      case TypeCode(t) => if s.step == CodeStep then s.(code := t) else s
      case ClickSend(reply) => if s.step == EmailStep then SendCode(s, reply).state else s
      case ClickConfirm(reply) => if s.step == CodeStep then ConfirmCode(s, reply).state else s
      case ClickBack => if s.step == CodeStep then s.(step := EmailStep) else s
  }

  function Run(s: AuthState, events: seq<Event>): AuthState {
    if |events| == 0 then s else Apply(Run(s, events[..|events| - 1]), events[|events| - 1])
  }

  /** The ordinary login succeeds: typing a valid address, an accepted login request, a code
      of at least four characters and an accepted confirmation reach the shop. */
  lemma LoginSucceeds(email: string, code: string)
    requires IsValidEmail(email) && |code| >= MinCodeLength
    ensures Run(Initial, [TypeEmail(email), ClickSend(Accepted), TypeCode(code), ClickConfirm(Accepted)]).authenticated
  {
    var events := [TypeEmail(email), ClickSend(Accepted), TypeCode(code), ClickConfirm(Accepted)];
    var s1 := Run(Initial, events[..1]);
    assert s1 == Initial.(email := email) by {
      assert events[..1][..0] == [] && events[..1][0] == TypeEmail(email);
      assert Run(Initial, events[..1]) == Apply(Run(Initial, []), TypeEmail(email));
    }
    var s2 := Run(Initial, events[..2]);
    assert s2 == s1.(step := CodeStep) by {
      assert events[..2][..1] == events[..1];
    }
    var s3 := Run(Initial, events[..3]);
    assert s3 == s2.(code := code) by {
      assert events[..3][..2] == events[..2];
    }
    assert events[..4][..3] == events[..3];
  }

  /** From the start page, the code step is reached only through an accepted login request,
      and the shop only through an accepted login request followed by an accepted
      confirmation. */
  lemma {:induction false} AuthenticationNeedsBothSteps(events: seq<Event>)
    ensures Run(Initial, events).step == CodeStep || Run(Initial, events).authenticated ==>
      exists i :: 0 <= i < |events| && events[i] == ClickSend(Accepted)
    ensures Run(Initial, events).authenticated ==>
      exists i, j :: 0 <= i < j < |events| && events[i] == ClickSend(Accepted) && events[j] == ClickConfirm(Accepted)
  {
    if |events| > 0 {
      var n := |events|;
      var init := events[..n - 1];
      AuthenticationNeedsBothSteps(init);
      var s := Run(Initial, init);
      assert forall i :: 0 <= i < n - 1 ==> init[i] == events[i];
      if s.step == EmailStep && !s.authenticated && Run(Initial, events).step == CodeStep {
        assert events[n - 1] == ClickSend(Accepted);
      }
      if !s.authenticated && Run(Initial, events).authenticated {
        assert events[n - 1] == ClickConfirm(Accepted);
        var i :| 0 <= i < n - 1 && init[i] == ClickSend(Accepted);
        assert events[i] == ClickSend(Accepted);
      }
    }
  }
}

=== FILE: cart_lines.dfy ===
/** The cart state kept by the application shell (src/App.tsx): a list of lines, one per
    product id, each with a quantity, and the four reducers that update it. */
module CartLines {
  import opened Seqs

  datatype Product = Product(id: int, name: string, price: int)

  datatype Line = Line(id: int, name: string, price: int, quantity: int)

  type Cart = seq<Line>

  predicate HasId(cart: Cart, id: int) {
    exists i :: 0 <= i < |cart| && cart[i].id == id
  }

  /** The invariant all four reducers keep: no product id appears on two lines. */
  predicate UniqueIds(cart: Cart) {
    forall i, j :: 0 <= i < j < |cart| ==> cart[i].id != cart[j].id
  }

  /** Independent view of a cart: how many units of product `id` it holds. */
  function QuantityOf(cart: Cart, id: int): int {
    if |cart| == 0 then 0
    else (if cart[0].id == id then cart[0].quantity else 0) + QuantityOf(cart[1..], id)
  }

  /** Total number of units over all lines. */
  function TotalUnits(cart: Cart): int {
    if |cart| == 0 then 0 else cart[0].quantity + TotalUnits(cart[1..])
  }

  /** Two carts line up position by position: same length, same id on every line, and
      identical lines wherever the id is not `id`. */
  predicate SameExceptId(c: Cart, d: Cart, id: int) {
    && |c| == |d|
    && (forall i :: 0 <= i < |c| ==> c[i].id == d[i].id)
    && (forall i :: 0 <= i < |c| && c[i].id != id ==> c[i] == d[i])
  }

  function Bumped(l: Line): Line {
    l.(quantity := l.quantity + 1)
  }

  /** `addToCart`: bump the line of an already present product, else append a new line of one. */
  function AddToCart(cart: Cart, p: Product): (r: Cart)
    ensures HasId(cart, p.id) ==> SameExceptId(cart, r, p.id)
    ensures HasId(cart, p.id) ==>
      forall i :: 0 <= i < |cart| && cart[i].id == p.id ==> r[i] == Bumped(cart[i])
    ensures !HasId(cart, p.id) ==> |r| == |cart| + 1 && r[..|cart|] == cart
    ensures !HasId(cart, p.id) ==> r[|cart|] == Line(p.id, p.name, p.price, 1)
    ensures forall id :: HasId(r, id) <==> HasId(cart, id) || id == p.id
    ensures UniqueIds(cart) ==> UniqueIds(r)
  {
    if HasId(cart, p.id) then
      seq(|cart|, i requires 0 <= i < |cart| => if cart[i].id == p.id then Bumped(cart[i]) else cart[i])
    else
      var r := cart + [Line(p.id, p.name, p.price, 1)];
      assert forall id :: HasId(r, id) ==> HasId(cart, id) || id == p.id by {
        forall id | HasId(r, id) ensures HasId(cart, id) || id == p.id {
          var i :| 0 <= i < |r| && r[i].id == id;
          if i < |cart| { assert cart[i].id == id; }
        }
      }
      r
  }

  /** `removeFromCart`: keep exactly the lines of other products, in order. */
  function RemoveFromCart(cart: Cart, id: int): (r: Cart)
    ensures forall i :: 0 <= i < |r| ==> r[i] in cart && r[i].id != id
    ensures forall i :: 0 <= i < |cart| && cart[i].id != id ==> cart[i] in r
    ensures !HasId(r, id)
    ensures UniqueIds(cart) ==> UniqueIds(r)
  {
    var r := Filter(cart, (l: Line) => l.id != id);
    assert UniqueIds(cart) ==> UniqueIds(r) by {
      if UniqueIds(cart) {
        RemovePreservesUnique(cart, id);
      }
    }
    r
  }

  /** Removal keeps the surviving lines in cart order with their multiplicity: it
      distributes over concatenation, and a single line survives exactly when it belongs to
      another product. */
  lemma RemoveFromCartOrder(a: Cart, b: Cart, l: Line, id: int)
    ensures RemoveFromCart(a + b, id) == RemoveFromCart(a, id) + RemoveFromCart(b, id)
    ensures RemoveFromCart([l], id) == (if l.id != id then [l] else [])
  {
    FilterConcat(a, b, (l': Line) => l'.id != id);
    FilterSingleton(l, (l': Line) => l'.id != id);
  }

  lemma {:induction false} RemovePreservesUnique(cart: Cart, id: int)
    requires UniqueIds(cart)
    ensures UniqueIds(Filter(cart, (l: Line) => l.id != id))
  {
    if |cart| > 0 {
      var p := (l: Line) => l.id != id;
      RemovePreservesUnique(cart[1..], id);
      var rest := Filter(cart[1..], p);
      forall j | 0 <= j < |rest| ensures rest[j].id != cart[0].id {
        var k :| 0 <= k < |cart[1..]| && cart[1..][k] == rest[j];
        assert cart[k + 1] == rest[j];
      }
    }
  }

  /** `increase`: one more unit on the lines of product `id`, nothing else changes. */
  function Increase(cart: Cart, id: int): (r: Cart)
    ensures SameExceptId(cart, r, id)
    ensures forall i :: 0 <= i < |cart| && cart[i].id == id ==> r[i] == Bumped(cart[i])
    ensures UniqueIds(cart) ==> UniqueIds(r)
  {
    seq(|cart|, i requires 0 <= i < |cart| => if cart[i].id == id then Bumped(cart[i]) else cart[i])
  }

  /** `decrease`: one unit fewer on the lines of product `id`, but never below one. */
  function Decrease(cart: Cart, id: int): (r: Cart)
    ensures SameExceptId(cart, r, id)
    ensures forall i :: 0 <= i < |cart| && cart[i].quantity >= 1 ==> r[i].quantity >= 1
    ensures forall i :: 0 <= i < |cart| && cart[i].id == id ==>
      r[i] == if cart[i].quantity > 1 then cart[i].(quantity := cart[i].quantity - 1) else cart[i]
    ensures UniqueIds(cart) ==> UniqueIds(r)
  {
    seq(|cart|, i requires 0 <= i < |cart| =>
      if cart[i].id == id && cart[i].quantity > 1 then cart[i].(quantity := cart[i].quantity - 1)
      else cart[i])
  }

  /** The badge on the catalog's cart button: the number of lines. */
  function CartCount(cart: Cart): nat {
    |cart|
  }

  /** Lines of other products do not affect the quantity of `id`'s product. */
  lemma {:induction false} QuantityOfSameExcept(c: Cart, d: Cart, id: int, other: int)
    requires SameExceptId(c, d, id)
    requires other != id
    ensures QuantityOf(d, other) == QuantityOf(c, other)
  {
    if |c| > 0 {
      QuantityOfSameExcept(c[1..], d[1..], id, other);
    }
  }

  lemma {:induction false} QuantityOfAbsent(cart: Cart, id: int)
    requires !HasId(cart, id)
    ensures QuantityOf(cart, id) == 0
  {
    if |cart| > 0 {
      forall i | 0 <= i < |cart| - 1 ensures cart[1..][i].id != id {
        assert cart[i + 1].id != id;
      }
      QuantityOfAbsent(cart[1..], id);
    }
  }

  lemma {:induction false} QuantityOfAppend(cart: Cart, l: Line, id: int)
    ensures QuantityOf(cart + [l], id) == QuantityOf(cart, id) + (if l.id == id then l.quantity else 0)
  {
    if |cart| == 0 {
      assert [l][1..] == [];
    } else {
      assert (cart + [l])[1..] == cart[1..] + [l];
      QuantityOfAppend(cart[1..], l, id);
    }
  }

  /** With unique ids, changing the quantity on the line of `id` by `delta` changes the
      product's quantity by exactly `delta`. */
  lemma {:induction false} QuantityOfShift(c: Cart, d: Cart, id: int, delta: int)
    requires SameExceptId(c, d, id) && UniqueIds(c)
    requires forall i :: 0 <= i < |c| && c[i].id == id ==> d[i].quantity == c[i].quantity + delta
    ensures QuantityOf(d, id) == QuantityOf(c, id) + (if HasId(c, id) then delta else 0)
  {
    if |c| > 0 {
      QuantityOfShift(c[1..], d[1..], id, delta);
      if c[0].id == id {
        forall i | 0 <= i < |c| - 1 ensures c[1..][i].id != id {
          assert c[i + 1].id != c[0].id;
        }
      } else {
        assert HasId(c, id) ==> HasId(c[1..], id) by {
          if HasId(c, id) {
            var i :| 0 <= i < |c| && c[i].id == id;
            assert i > 0 && c[1..][i - 1].id == id;
          }
        }
        assert HasId(c[1..], id) ==> HasId(c, id) by {
          if HasId(c[1..], id) {
            var i :| 0 <= i < |c[1..]| && c[1..][i].id == id;
            assert c[i + 1].id == id;
          }
        }
      }
    }
  }

  /** Adding a product puts exactly one more unit of it in the cart and leaves every other
      product's quantity alone. */
  lemma AddToCartQuantities(cart: Cart, p: Product, other: int)
    requires UniqueIds(cart)
    ensures QuantityOf(AddToCart(cart, p), p.id) == QuantityOf(cart, p.id) + 1
    ensures other != p.id ==> QuantityOf(AddToCart(cart, p), other) == QuantityOf(cart, other)
  {
    var r := AddToCart(cart, p);
    if HasId(cart, p.id) {
      QuantityOfShift(cart, r, p.id, 1);
      if other != p.id { QuantityOfSameExcept(cart, r, p.id, other); }
    } else {
      QuantityOfAppend(cart, Line(p.id, p.name, p.price, 1), p.id);
      QuantityOfAppend(cart, Line(p.id, p.name, p.price, 1), other);
      QuantityOfAbsent(cart, p.id);
      assert r == cart + [Line(p.id, p.name, p.price, 1)];
    }
  }

  /** Removing a product drops all of its units and no other product's. */
  lemma RemoveFromCartQuantities(cart: Cart, id: int, other: int)
    ensures QuantityOf(RemoveFromCart(cart, id), id) == 0
    ensures other != id ==> QuantityOf(RemoveFromCart(cart, id), other) == QuantityOf(cart, other)
  {
    QuantityOfAbsent(RemoveFromCart(cart, id), id);
    if other != id {
      QuantityOfFilterOther(cart, id, other);
    }
  }

  lemma {:induction false} QuantityOfFilterOther(cart: Cart, id: int, other: int)
    requires other != id
    ensures QuantityOf(Filter(cart, (l: Line) => l.id != id), other) == QuantityOf(cart, other)
  {
    if |cart| > 0 {
      var p := (l: Line) => l.id != id;
      QuantityOfFilterOther(cart[1..], id, other);
      var head := if p(cart[0]) then [cart[0]] else [];
      var rest := Filter(cart[1..], p);
      assert Filter(cart, p) == head + rest;
      if p(cart[0]) {
        assert (head + rest)[0] == cart[0] && (head + rest)[1..] == rest;
      } else {
        assert head + rest == rest;
      }
    }
  }

  /** With unique ids, `increase` adds one unit of `id` if the cart holds it. */
  lemma IncreaseQuantities(cart: Cart, id: int, other: int)
    requires UniqueIds(cart)
    ensures QuantityOf(Increase(cart, id), id) == QuantityOf(cart, id) + (if HasId(cart, id) then 1 else 0)
    ensures other != id ==> QuantityOf(Increase(cart, id), other) == QuantityOf(cart, other)
  {
    QuantityOfShift(cart, Increase(cart, id), id, 1);
    if other != id { QuantityOfSameExcept(cart, Increase(cart, id), id, other); }
  }

  /** `decrease` undoes `increase` on a cart whose quantities are all at least one. */
  lemma DecreaseUndoesIncrease(cart: Cart, id: int)
    requires forall i :: 0 <= i < |cart| ==> cart[i].quantity >= 1
    ensures Decrease(Increase(cart, id), id) == cart
  {
    var r := Decrease(Increase(cart, id), id);
    assert forall i :: 0 <= i < |cart| ==> r[i] == cart[i];
  }

  /** `increase` undoes `decrease` when every line of `id` holds more than one unit. */
  lemma IncreaseUndoesDecrease(cart: Cart, id: int)
    requires forall i :: 0 <= i < |cart| && cart[i].id == id ==> cart[i].quantity > 1
    ensures Increase(Decrease(cart, id), id) == cart
  {
    var r := Increase(Decrease(cart, id), id);
    assert forall i :: 0 <= i < |cart| ==> r[i] == cart[i];
  }

  lemma {:induction false} TotalUnitsShift(c: Cart, d: Cart, id: int)
    requires SameExceptId(c, d, id) && UniqueIds(c) && HasId(c, id)
    requires forall i :: 0 <= i < |c| && c[i].id == id ==> d[i].quantity == c[i].quantity + 1
    ensures TotalUnits(d) == TotalUnits(c) + 1
  {
    if c[0].id != id {
      var i :| 0 <= i < |c| && c[i].id == id;
      assert c[1..][i - 1].id == id;
      TotalUnitsShift(c[1..], d[1..], id);
    } else {
      assert d[1..] == c[1..] by {
        forall k | 0 <= k < |c| - 1 ensures d[1..][k] == c[1..][k] {
          assert c[k + 1].id != c[0].id;
        }
      }
    }
  }

  /** The badge counts lines, not units: adding a product already in the cart leaves the
      count alone while the number of units grows by one. */
  lemma CartCountIsLinesNotUnits(cart: Cart, p: Product)
    requires UniqueIds(cart) && HasId(cart, p.id)
    ensures CartCount(AddToCart(cart, p)) == CartCount(cart)
    ensures TotalUnits(AddToCart(cart, p)) == TotalUnits(cart) + 1
  {
    TotalUnitsShift(cart, AddToCart(cart, p), p.id);
  }
}

=== FILE: cart_page.dfy ===
/** The cart page (src/pages/Cart/Cart.tsx): the server's cart as fetched, the order total,
    the per-line price, and when the buy button and the empty-cart message appear. */
module CartPage {
  import opened Wrappers

  datatype Design = Design(designId: int, name: string, imageUrl: string, backgroundColor: string, basePrice: int)

  datatype Item = Item(cartItemId: int, quantity: int, design: Design)

  datatype ApiCart = ApiCart(cartId: int, items: seq<Item>)

  /** The price shown on one line: unit price times quantity. */
  function LinePrice(item: Item): int {
    item.design.basePrice * item.quantity
  }

  predicate NonNegative(items: seq<Item>) {
    forall i :: 0 <= i < |items| ==> items[i].design.basePrice >= 0 && items[i].quantity >= 0
  }

  /** Reference sum of the line prices, accumulated left to right like `reduce`. */
  function Sum(items: seq<Item>): int {
    if |items| == 0 then 0 else Sum(items[..|items| - 1]) + LinePrice(items[|items| - 1])
  }

  /** `total`: the reduce over the items starting from 0, or 0 when no cart was loaded. */
  method Total(cart: Option<ApiCart>) returns (total: int)
    ensures cart.None? ==> total == 0
    ensures cart.Some? ==> total == Sum(cart.value.items)
    ensures cart.Some? && NonNegative(cart.value.items) ==> total >= 0
  {
    total := 0;
    if cart.None? {
      return;
    }
    var items := cart.value.items;
    var i := 0;
    while i < |items|
      invariant 0 <= i <= |items|
      invariant total == Sum(items[..i])
      invariant NonNegative(items) ==> total >= 0
    {
      assert items[..i + 1][..i] == items[..i];
      total := total + LinePrice(items[i]);
      i := i + 1;
    }
    assert items[..i] == items;
  }

  /** The total of two runs of items is the sum of their totals. */
  lemma {:induction false} SumAppend(a: seq<Item>, b: seq<Item>)
    ensures Sum(a + b) == Sum(a) + Sum(b)
  {
    if |b| == 0 {
      assert a + b == a;
    } else {
      var b' := b[..|b| - 1];
      assert (a + b)[..|a + b| - 1] == a + b';
      SumAppend(a, b');
    }
  }

  /** The total over items whose quantities and prices are non-negative is non-negative. */
  lemma {:induction false} SumNonNegative(items: seq<Item>)
    requires NonNegative(items)
    ensures Sum(items) >= 0
  {
    if |items| > 0 {
      SumNonNegative(items[..|items| - 1]);
    }
  }

  /** The buy button is disabled while no cart is loaded or the cart has no items. */
  predicate BuyDisabled(cart: Option<ApiCart>) {
    cart.None? || |cart.value.items| == 0
  }

  /** "Корзина пустая" shows only for a loaded cart with no items. */
  predicate ShowsEmptyMessage(cart: Option<ApiCart>) {
    cart.Some? && |cart.value.items| == 0
  }

  /** The empty message and the disabled button agree on loaded carts; a disabled button
      always goes with a zero total. */
  lemma BuyDisabledAgreesWithTotal(cart: Option<ApiCart>)
    ensures ShowsEmptyMessage(cart) ==> BuyDisabled(cart)
    ensures cart.Some? ==> (BuyDisabled(cart) <==> ShowsEmptyMessage(cart))
    ensures BuyDisabled(cart) ==> (if cart.Some? then Sum(cart.value.items) else 0) == 0
  {
  }
}

=== FILE: catalog.dfy ===
/** The catalog page (src/pages/Catalog/Catalog.tsx): normalising the server's design
    records, the colour and model option lists, the price-range check, the product filter,
    the price inputs, the reset button and the guarded add-to-cart button. */
module Catalog {
  import opened Wrappers
  import opened Seqs
  import opened Digits
  import CartLines

  /** The server's records, with every field that may be absent made optional. */
  datatype RawModel = RawModel(name: Option<string>, photoUrl: Option<string>)
  datatype RawProduct = RawProduct(basePrice: Option<int>, model: Option<RawModel>)
  /** A numeric JSON field that may be missing or `null`. Only a template literal tells the
      two apart: it prints "undefined" for the one and "null" for the other. */
  datatype NumberField = Missing | Null | Number(value: int)

  datatype RawDesign = RawDesign(
    designId: int,
    name: string,
    productId: NumberField,
    product: Option<RawProduct>,
    backgroundColor: Option<string>,
    imageUrl: Option<string>)
  /** One element of the response array; `design` is its `Design` member. */
  datatype RawItem = RawItem(design: Option<RawDesign>)
  datatype Payload = JsonArray(items: seq<RawItem>) | JsonOther
  /** What `fetchDesigns` got: a parsed body, or a failure (network error, status not ok,
      body that is not JSON), all of which end in the same `catch`. */
  datatype Fetch = Received(payload: Payload) | FetchFailed

  datatype Product = Product(id: int, name: string, price: int, color: string, model: string, imageUrl: string)

  const All := "Все"
  const NoColor := "Без цвета"
  const Placeholder := "/placeholder.png"
  const ProductPrefix := "Product "

  /** JavaScript truthiness of an optional string: present and not empty. */
  predicate Truthy(o: Option<string>) {
    o.Some? && o.value != ""
  }

  /** `o || fallback` on an optional string. */
  function OrElse(o: Option<string>, fallback: string): string {
    if Truthy(o) then o.value else fallback
  }

  /** `d.product?.model` */
  function ModelOf(d: RawDesign): Option<RawModel> {
    if d.product.Some? then d.product.value.model else None
  }

  /** `d.product?.model?.name` */
  function ModelName(d: RawDesign): Option<string> {
    if ModelOf(d).Some? then ModelOf(d).value.name else None
  }

  /** `d.product?.model?.model_photo_url` */
  function ModelPhoto(d: RawDesign): Option<string> {
    if ModelOf(d).Some? then ModelOf(d).value.photoUrl else None
  }

  /** Template-literal text of a numeric field. */
  function IdText(o: NumberField): string {
    match o
    case Missing => "undefined"
    case Null => "null"
    case Number(n) => IntText(n)
  }

  /** The mapping of one record onto a catalog product, with its defaults. */
  function Normalize(d: RawDesign): (p: Product)
    ensures p.id == d.designId && p.name == d.name
    ensures p.price == (if d.product.Some? && d.product.value.basePrice.Some? then d.product.value.basePrice.value else 0)
    ensures p.color != "" && p.model != "" && p.imageUrl != ""
    ensures Truthy(d.backgroundColor) ==> p.color == d.backgroundColor.value
    ensures !Truthy(d.backgroundColor) ==> p.color == NoColor
    ensures Truthy(ModelName(d)) ==> p.model == ModelName(d).value
    ensures !Truthy(ModelName(d)) && d.productId.Number? && d.productId.value >= 0 ==>
      |p.model| > |ProductPrefix| && p.model[..|ProductPrefix|] == ProductPrefix && IsDigits(p.model[|ProductPrefix|..])
      && Value(p.model[|ProductPrefix|..]) == d.productId.value
      && (|p.model| == |ProductPrefix| + 1 || p.model[|ProductPrefix|] != '0')
    ensures !Truthy(ModelName(d)) && d.productId.Number? && d.productId.value < 0 ==>
      |p.model| > |ProductPrefix| + 1 && p.model[..|ProductPrefix|] == ProductPrefix
      && p.model[|ProductPrefix|] == '-' && IsDigits(p.model[|ProductPrefix| + 1..])
      && Value(p.model[|ProductPrefix| + 1..]) == -d.productId.value
      && (|p.model| == |ProductPrefix| + 2 || p.model[|ProductPrefix| + 1] != '0')
    ensures !Truthy(ModelName(d)) && d.productId.Missing? ==> p.model == ProductPrefix + "undefined"
    ensures !Truthy(ModelName(d)) && d.productId.Null? ==> p.model == ProductPrefix + "null"
    ensures Truthy(d.imageUrl) ==> p.imageUrl == d.imageUrl.value
    ensures !Truthy(d.imageUrl) && Truthy(ModelPhoto(d)) ==> p.imageUrl == ModelPhoto(d).value
    ensures !Truthy(d.imageUrl) && !Truthy(ModelPhoto(d)) ==> p.imageUrl == Placeholder
  {
    var price := if d.product.Some? then d.product.value.basePrice.GetOr(0) else 0;
    var fallbackModel := ProductPrefix + IdText(d.productId);
    assert fallbackModel[|ProductPrefix|..] == IdText(d.productId);
    assert fallbackModel[|ProductPrefix| + 1..] == IdText(d.productId)[1..];
    Product(
      d.designId,
      d.name,
      price,
      OrElse(d.backgroundColor, NoColor),
      OrElse(ModelName(d), fallbackModel),
      OrElse(d.imageUrl, OrElse(ModelPhoto(d), Placeholder)))
  }

  predicate AllHaveDesign(items: seq<RawItem>) {
    forall i :: 0 <= i < |items| ==> items[i].design.Some?
  }

  /** `fetchDesigns`: the products the catalog shows after loading. Reading a field of a
      missing `Design` throws inside the `map`, so one bad element empties the whole list. */
  function LoadProducts(f: Fetch): (r: seq<Product>)
    ensures f.FetchFailed? || f.payload.JsonOther? ==> r == []
    ensures f.Received? && f.payload.JsonArray? && !AllHaveDesign(f.payload.items) ==> r == []
    ensures f.Received? && f.payload.JsonArray? && AllHaveDesign(f.payload.items) ==>
      |r| == |f.payload.items|
      && forall i :: 0 <= i < |r| ==> r[i] == Normalize(f.payload.items[i].design.value)
    ensures forall i :: 0 <= i < |r| ==> r[i].color != "" && r[i].model != "" && r[i].imageUrl != ""
  {
    match f
    case FetchFailed => []
    case Received(JsonOther) => []
    case Received(JsonArray(items)) =>
      if AllHaveDesign(items) then
        seq(|items|, i requires 0 <= i < |items| && AllHaveDesign(items) => Normalize(items[i].design.value))
      else []
  }

  /** A select's option list: "Все" followed by the distinct values in order of first use. */
  function Options(values: seq<string>): (r: seq<string>)
    ensures |r| >= 1 && r[0] == All
    ensures forall i :: 1 <= i < |r| ==> r[i] in values
    ensures forall i :: 0 <= i < |values| ==> values[i] in r[1..]
    ensures NoDuplicates(r[1..])
  {
    [All] + Distinct(values)
  }

  function Colors(products: seq<Product>): seq<string> {
    seq(|products|, i requires 0 <= i < |products| => products[i].color)
  }

  function Models(products: seq<Product>): seq<string> {
    seq(|products|, i requires 0 <= i < |products| => products[i].model)
  }

  /** `colors`: every product's colour is offered once, after "Все", in the order the colours
      first appear among the products. */
  lemma ColorOptionsOrder(products: seq<Product>)
    ensures forall k :: 0 <= k < |products| ==> products[k].color in Options(Colors(products))[1..]
    ensures forall i, j :: 1 <= i < j < |Options(Colors(products))| ==>
      FirstIndex(Colors(products), Options(Colors(products))[i]) < FirstIndex(Colors(products), Options(Colors(products))[j])
  {
    var cs := Colors(products);
    assert forall k :: 0 <= k < |products| ==> cs[k] == products[k].color;
    DistinctFirstOccurrenceOrder(cs);
    var o := Options(cs);
    forall i, j | 1 <= i < j < |o| ensures FirstIndex(cs, o[i]) < FirstIndex(cs, o[j]) {
      assert o[i] == Distinct(cs)[i - 1] && o[j] == Distinct(cs)[j - 1];
    }
  }

  /** `models`: the same guarantee for the model names. */
  lemma ModelOptionsOrder(products: seq<Product>)
    ensures forall k :: 0 <= k < |products| ==> products[k].model in Options(Models(products))[1..]
    ensures forall i, j :: 1 <= i < j < |Options(Models(products))| ==>
      FirstIndex(Models(products), Options(Models(products))[i]) < FirstIndex(Models(products), Options(Models(products))[j])
  {
    var ms := Models(products);
    assert forall k :: 0 <= k < |products| ==> ms[k] == products[k].model;
    DistinctFirstOccurrenceOrder(ms);
    var o := Options(ms);
    forall i, j | 1 <= i < j < |o| ensures FirstIndex(ms, o[i]) < FirstIndex(ms, o[j]) {
      assert o[i] == Distinct(ms)[i - 1] && o[j] == Distinct(ms)[j - 1];
    }
  }

  /** A price field's text: empty, or what `/^\d+$/` accepts. */
  type PriceText = s: string | s == "" || IsDigits(s)

  datatype Filters = Filters(color: string, model: string, minPrice: PriceText, maxPrice: PriceText)

  const Initial := Filters(All, All, "", "")

  /** `minPrice !== "" ? Number(minPrice) : null` */
  function Bound(s: PriceText): Option<int> {
    if s == "" then None else Some(Value(s))
  }

  const NegativeMin := "Минимальная цена не может быть отрицательной"
  const NegativeMax := "Максимальная цена не может быть отрицательной"
  const MinAboveMax := "Минимальная цена не может быть больше максимальной"

  /** `priceError` over parsed bounds: the first check that fires, or "" when none does. */
  function PriceError(min: Option<int>, max: Option<int>): string {
    if min.Some? && min.value < 0 then NegativeMin
    else if max.Some? && max.value < 0 then NegativeMax
    else if min.Some? && max.Some? && min.value > max.value then MinAboveMax
    else ""
  }

  function FilterError(f: Filters): string {
    PriceError(Bound(f.minPrice), Bound(f.maxPrice))
  }

  /** The price check reports in order: a negative minimum first, then a negative maximum,
      then an inverted range; it is silent exactly when the range is consistent. */
  lemma PriceErrorOrder(min: Option<int>, max: Option<int>)
    ensures PriceError(min, max) in {"", NegativeMin, NegativeMax, MinAboveMax}
    ensures PriceError(min, max) == NegativeMin <==> min.Some? && min.value < 0
    ensures PriceError(min, max) == NegativeMax <==>
      (min.None? || min.value >= 0) && max.Some? && max.value < 0
    ensures PriceError(min, max) == MinAboveMax <==>
      min.Some? && max.Some? && min.value >= 0 && max.value >= 0 && min.value > max.value
    ensures PriceError(min, max) == "" <==>
      (min.None? || min.value >= 0) && (max.None? || max.value >= 0)
      && (min.None? || max.None? || min.value <= max.value)
  {
  }

  /** The price fields only ever hold digits, so neither negative message can appear. */
  lemma FilterErrorNeverNegative(f: Filters)
    ensures FilterError(f) == "" || FilterError(f) == MinAboveMax
    ensures FilterError(f) == MinAboveMax <==>
      f.minPrice != "" && f.maxPrice != "" && Value(f.minPrice) > Value(f.maxPrice)
  {
  }

  /** The predicate of `filteredProducts`. */
  predicate Matches(f: Filters, p: Product) {
    var min := Bound(f.minPrice);
    var max := Bound(f.maxPrice);
    && (f.color == All || p.color == f.color)
    && (f.model == All || p.model == f.model)
    && (min.None? || p.price >= min.value)
    && (max.None? || p.price <= max.value)
  }

  /** `filteredProducts`: the matching products, in catalog order. */
  function FilteredProducts(products: seq<Product>, f: Filters): (r: seq<Product>)
    ensures |r| <= |products|
    ensures forall i :: 0 <= i < |r| ==> r[i] in products && Matches(f, r[i])
    ensures forall i :: 0 <= i < |products| && Matches(f, products[i]) ==> products[i] in r
  {
    Filter(products, p => Matches(f, p))
  }

  /** Filtering keeps catalog order: the filtered concatenation is the concatenation of the
      filtered parts, and one product is kept exactly when it matches. */
  lemma FilteredProductsOrder(a: seq<Product>, b: seq<Product>, f: Filters, p: Product)
    ensures FilteredProducts(a + b, f) == FilteredProducts(a, f) + FilteredProducts(b, f)
    ensures FilteredProducts([p], f) == (if Matches(f, p) then [p] else [])
  {
    FilterConcat(a, b, p => Matches(f, p));
    FilterSingleton(p, p' => Matches(f, p'));
  }

  /** With "Все", "Все" and empty price fields every product is shown. */
  lemma InitialFiltersShowAll(products: seq<Product>)
    ensures FilteredProducts(products, Initial) == products
  {
    FilterAll(products, p => Matches(Initial, p));
  }

  /** While the range is inverted no product can match, so the list is empty. */
  lemma InvertedRangeShowsNothing(products: seq<Product>, f: Filters)
    requires FilterError(f) != ""
    ensures FilteredProducts(products, f) == []
  {
    FilterNone(products, p => Matches(f, p));
  }

  /** `handleMinPriceChange`: accept "" or all digits, ignore anything else. */
  function MinPriceChanged(f: Filters, value: string): (r: Filters)
    ensures r.color == f.color && r.model == f.model && r.maxPrice == f.maxPrice
    ensures value == "" || IsDigits(value) ==> r.minPrice == value
    ensures !(value == "" || IsDigits(value)) ==> r == f
  {
    if value == "" then f.(minPrice := "")
    else if IsDigits(value) then f.(minPrice := value)
    else f
  }

  /** `handleMaxPriceChange`: accept "" or all digits, ignore anything else. */
  function MaxPriceChanged(f: Filters, value: string): (r: Filters)
    ensures r.color == f.color && r.model == f.model && r.minPrice == f.minPrice
    ensures value == "" || IsDigits(value) ==> r.maxPrice == value
    ensures !(value == "" || IsDigits(value)) ==> r == f
  {
    if value == "" then f.(maxPrice := "")
    else if IsDigits(value) then f.(maxPrice := value)
    else f
  }

  /** Typing the decimal text of `n` sets that bound to `n`; a minus sign is refused. */
  lemma PriceInputBounds(f: Filters, n: nat)
    ensures Bound(MinPriceChanged(f, Text(n)).minPrice) == Some(n)
    ensures Bound(MaxPriceChanged(f, Text(n)).maxPrice) == Some(n)
    ensures MinPriceChanged(f, "-" + Text(n)) == f
    ensures MaxPriceChanged(f, "-" + Text(n)) == f
  {
    ValueOfText(n);
    assert !IsDigit(("-" + Text(n))[0]);
  }

  /** The reset button ("Сброс"). */
  function Reset(f: Filters): (r: Filters)
    ensures r.color == All && r.model == All && r.minPrice == "" && r.maxPrice == ""
    ensures FilterError(r) == ""
    ensures forall products: seq<Product> :: FilteredProducts(products, r) == products
  {
    forall products: seq<Product> ensures FilteredProducts(products, Initial) == products {
      InitialFiltersShowAll(products);
    }
    Initial
  }

  /** The fields of a catalog product that the cart reducers use. The shell spreads the
      whole product into the new line; the others are never read and are not modelled. */
  function AsCartProduct(p: Product): CartLines.Product {
    CartLines.Product(p.id, p.name, p.price)
  }

  datatype AddResult = AddResult(cart: CartLines.Cart, requested: bool)

  /** The "Добавить" button: no request while the price range is invalid; otherwise the
      add-to-cart request, and only an accepted one adds the product to the cart. */
  function ClickAdd(f: Filters, p: Product, accepted: bool, cart: CartLines.Cart): (r: AddResult)
    ensures FilterError(f) != "" ==> r == AddResult(cart, false)
    ensures FilterError(f) == "" ==> r.requested
    ensures !accepted ==> r.cart == cart
    ensures FilterError(f) == "" && accepted ==> r.cart == CartLines.AddToCart(cart, AsCartProduct(p))
    ensures CartLines.UniqueIds(cart) ==> CartLines.UniqueIds(r.cart)
  {
    if FilterError(f) != "" then AddResult(cart, false)
    else if accepted then AddResult(CartLines.AddToCart(cart, AsCartProduct(p)), true)
    else AddResult(cart, true)
  }
}

=== FILE: constructor.dfy ===
/** The case editor (src/pages/Constructor/Constructor.tsx): the canvas with its case
    background, text and images, the selection and the settings panel that edits it, the
    responsive resize, the tool bar and the outcome of saving a design. */
module Constructor {
  import opened Wrappers
  import opened Scene

  datatype Tool = TextTool | ImageTool | CaseTool

  /** The fabric canvas: its size and its object stack. */
  datatype Canvas = Canvas(width: real, height: real, objects: Objects)

  /** The editor's state. `canvas` is `fabricRef.current`, `caseRef` is `caseRef.current` and
      `selected` the `selected` state, the last two by identity. `mountColor` is the
      `caseColor` the mount-only effect saw, which its `createCase` keeps using.
      `nextId` hands out identities for newly created objects. */
  datatype Editor = Editor(
    canvas: Option<Canvas>,
    caseRef: Option<nat>,
    selected: Option<nat>,
    caseColor: string,
    mountColor: string,
    tool: Tool,
    designName: string,
    nextId: nat)

  const InitialColor := "#ffffff"
  const CaseRadius := 40.0
  const FallbackWidth := 600
  const FallbackHeight := 400
  const DefaultText := "Ваш текст"
  const DefaultFontSize := 14.0
  const DefaultTextColor := "#000000"
  const DefaultFontFamily := "Arial"

  /** The editor before its mount effect has run. */
  const Initial := Editor(None, None, None, InitialColor, InitialColor, TextTool, "", 0)

  /** `clientWidth` and `clientHeight` of the canvas element's parent. */
  datatype Size = Size(width: nat, height: nat)

  /** What the effects can see of the page: whether the canvas element is attached, and
      its parent element if it has one. */
  datatype Dom = Dom(canvasElement: bool, container: Option<Size>)

  /** `createCase`: the rounded case outline filling a canvas of the given size. */
  function CreateCase(width: real, height: real, fill: string, id: nat): (c: SceneObject)
    ensures c.kind == CaseShape(fill, CaseRadius, CaseRadius)
    ensures c.width == width && c.height == height
    ensures c.left * 2.0 == width && c.top * 2.0 == height
    ensures !c.selectable && !c.evented && c.id == id
    ensures c.scaleX == 1.0 && c.scaleY == 1.0 && !c.flipX && !c.flipY
  {
    SceneObject(id, CaseShape(fill, CaseRadius, CaseRadius), width / 2.0, height / 2.0,
      width, height, 1.0, 1.0, 0.0, false, false, false, false)
  }

  function Objs(ed: Editor): Objects
    requires ed.canvas.Some?
  {
    ed.canvas.value.objects
  }

  /** The case object `caseRef` designates, looked up on the canvas. */
  function CaseObject(ed: Editor): Option<SceneObject> {
    if ed.canvas.Some? && ed.caseRef.Some? then Find(Objs(ed), ed.caseRef.value) else None
  }

  /** The selected object, looked up on the canvas; absent means nothing is selected. */
  function SelectedObject(ed: Editor): Option<SceneObject> {
    if ed.canvas.Some? && ed.selected.Some? then Find(Objs(ed), ed.selected.value) else None
  }

  /** The stack has the case at index 0 and no other case anywhere. */
  predicate CaseAtBack(objs: Objects, caseId: nat) {
    && |objs| > 0
    && objs[0].id == caseId
    && objs[0].kind.CaseShape?
    && !objs[0].selectable
    && (forall i :: 1 <= i < |objs| ==> !objs[i].kind.CaseShape?)
  }

  /** Every identity on the stack was handed out before `next`. */
  predicate IdsBelow(objs: Objects, next: nat) {
    forall i :: 0 <= i < |objs| ==> objs[i].id < next
  }

  predicate SelectableOn(objs: Objects, id: nat) {
    exists i :: 0 <= i < |objs| && objs[i].id == id && objs[i].selectable
  }

  /** The editor's invariant: once mounted, the case is the bottom object and the only case,
      identities are distinct and older than `nextId`, and the selection is a selectable
      object on the canvas. */
  predicate WellFormed(ed: Editor) {
    && (ed.canvas.None? ==> ed.caseRef.None? && ed.selected.None?)
    && (ed.canvas.Some? ==>
      && ed.caseRef.Some?
      && CaseAtBack(Objs(ed), ed.caseRef.value)
      && UniqueIds(Objs(ed))
      && IdsBelow(Objs(ed), ed.nextId)
      && (ed.selected.Some? ==> SelectableOn(Objs(ed), ed.selected.value)))
  }

  function CaseCount(objs: Objects): nat {
    if |objs| == 0 then 0 else (if objs[0].kind.CaseShape? then 1 else 0) + CaseCount(objs[1..])
  }

  lemma {:induction false} NoCaseCount(objs: Objects)
    requires forall i :: 0 <= i < |objs| ==> !objs[i].kind.CaseShape?
    ensures CaseCount(objs) == 0
  {
    if |objs| > 0 {
      assert forall i :: 0 <= i < |objs| - 1 ==> objs[1..][i] == objs[i + 1];
      NoCaseCount(objs[1..]);
    }
  }

  /** In a well-formed editor exactly one case exists, and it is the object `caseRef` names. */
  lemma ExactlyOneCase(ed: Editor)
    requires WellFormed(ed) && ed.canvas.Some?
    ensures CaseCount(Objs(ed)) == 1
    ensures CaseObject(ed) == Some(Objs(ed)[0])
  {
    var objs := Objs(ed);
    assert forall i :: 0 <= i < |objs| - 1 ==> objs[1..][i] == objs[i + 1];
    NoCaseCount(objs[1..]);
  }

  /** The mount effect: a canvas the size of the container (600 by 400 without one) holding
      only the case, filled with the colour of the moment. Without a canvas element nothing
      happens. */
  function Mount(ed: Editor, dom: Dom): (r: Editor)
    ensures !dom.canvasElement ==> r == ed
    ensures dom.canvasElement ==>
      && r.canvas.Some?
      && r.canvas.value.width == (if dom.container.Some? then dom.container.value.width else FallbackWidth) as real
      && r.canvas.value.height == (if dom.container.Some? then dom.container.value.height else FallbackHeight) as real
      && Objs(r) == [CreateCase(r.canvas.value.width, r.canvas.value.height, ed.caseColor, ed.nextId)]
      && r.caseRef == Some(ed.nextId)
      && r.mountColor == ed.caseColor
      && r.caseColor == ed.caseColor && r.selected == ed.selected && r.tool == ed.tool
    ensures dom.canvasElement && ed.selected.None? ==> WellFormed(r)
  {
    if !dom.canvasElement then ed
    else
      var width := (if dom.container.Some? then dom.container.value.width else FallbackWidth) as real;
      var height := (if dom.container.Some? then dom.container.value.height else FallbackHeight) as real;
      var c := CreateCase(width, height, ed.caseColor, ed.nextId);
      AddThenSendToBack([], c);
      ed.(canvas := Some(Canvas(width, height, SendToBack(Add([], c), c.id))),
          caseRef := Some(c.id), mountColor := ed.caseColor, nextId := ed.nextId + 1)
  }

  /** Whether `handleResize` gets past its guards. */
  predicate ResizeApplies(ed: Editor, dom: Dom) {
    dom.canvasElement && ed.canvas.Some? && dom.container.Some?
  }

  /** `handleResize`: the canvas takes the container's size and the case is replaced by a
      fresh one of that size, created with the mount-time colour and sent to the back. */
  function Resize(ed: Editor, dom: Dom): (r: Editor)
    ensures !ResizeApplies(ed, dom) ==> r == ed
    ensures ResizeApplies(ed, dom) ==>
      && r.canvas.Some?
      && r.canvas.value.width == dom.container.value.width as real
      && r.canvas.value.height == dom.container.value.height as real
      && |Objs(r)| > 0
      && (IdsBelow(Objs(ed), ed.nextId) ==>
            Objs(r)[0] == CreateCase(r.canvas.value.width, r.canvas.value.height, ed.mountColor, ed.nextId))
      && r.caseRef == Some(ed.nextId)
      && r == ed.(canvas := r.canvas, caseRef := r.caseRef, nextId := ed.nextId + 1)
  {
    if !ResizeApplies(ed, dom) then ed
    else
      var width := dom.container.value.width as real;
      var height := dom.container.value.height as real;
      var objs := Objs(ed);
      var kept := if ed.caseRef.Some? then Remove(objs, ed.caseRef.value) else objs;
      var c := CreateCase(width, height, ed.mountColor, ed.nextId);
      var stack := SendToBack(Add(kept, c), c.id);
      assert Add(kept, c)[|kept|] == c;
      FreshCaseGoesUnder(objs, kept, c);
      ed.(canvas := Some(Canvas(width, height, stack)), caseRef := Some(c.id), nextId := ed.nextId + 1)
  }

  lemma FreshCaseGoesUnder(objs: Objects, kept: Objects, c: SceneObject)
    requires forall i :: 0 <= i < |kept| ==> kept[i] in objs
    ensures IdsBelow(objs, c.id) ==> SendToBack(Add(kept, c), c.id) == [c] + kept
  {
    if IdsBelow(objs, c.id) {
      assert !Contains(kept, c.id);
      AddThenSendToBack(kept, c);
    }
  }

  /** On a well-formed editor a resize swaps the bottom object for the new case and leaves
      every other object, its position and its place in the stack, exactly as it was. */
  lemma ResizeKeepsOthers(ed: Editor, dom: Dom)
    requires WellFormed(ed) && ResizeApplies(ed, dom)
    ensures var r := Resize(ed, dom);
      Objs(r) == [CreateCase(r.canvas.value.width, r.canvas.value.height, ed.mountColor, ed.nextId)] + Objs(ed)[1..]
  {
    var objs := Objs(ed);
    RemoveBottom(objs);
    var c := CreateCase(dom.container.value.width as real, dom.container.value.height as real, ed.mountColor, ed.nextId);
    assert !Contains(objs[1..], c.id) by {
      forall i | 0 <= i < |objs| - 1 ensures objs[1..][i].id != c.id {
        assert objs[1..][i] == objs[i + 1];
      }
    }
    AddThenSendToBack(objs[1..], c);
  }

  /** Swapping the bottom object for a fresh case keeps the rest of the invariant. */
  lemma SwapBottomWellFormed(objs: Objects, c: SceneObject, caseId: nat, next: nat, sel: Option<nat>)
    requires CaseAtBack(objs, caseId) && UniqueIds(objs) && IdsBelow(objs, next)
    requires sel.Some? ==> SelectableOn(objs, sel.value)
    requires c.id == next && c.kind.CaseShape? && !c.selectable
    ensures CaseAtBack([c] + objs[1..], c.id) && UniqueIds([c] + objs[1..]) && IdsBelow([c] + objs[1..], next + 1)
    ensures sel.Some? ==> SelectableOn([c] + objs[1..], sel.value)
  {
    var swapped := [c] + objs[1..];
    assert forall i :: 1 <= i < |swapped| ==> swapped[i] == objs[i];
    if sel.Some? {
      var i :| 0 <= i < |objs| && objs[i].id == sel.value && objs[i].selectable;
      assert swapped[i] == objs[i];
    }
  }

  /** A resize keeps the editor well formed. */
  lemma ResizeWellFormed(ed: Editor, dom: Dom)
    requires WellFormed(ed)
    ensures WellFormed(Resize(ed, dom))
  {
    if ResizeApplies(ed, dom) {
      ResizeKeepsOthers(ed, dom);
      var r := Resize(ed, dom);
      SwapBottomWellFormed(Objs(ed), Objs(r)[0], ed.caseRef.value, ed.nextId, ed.selected);
    }
  }

  /** Everything a resize of a well-formed editor guarantees, in one place. */
  lemma ResizeFacts(ed: Editor, dom: Dom)
    requires WellFormed(ed) && ResizeApplies(ed, dom)
    ensures var r := Resize(ed, dom);
      && WellFormed(r) && ResizeApplies(r, dom)
      && Objs(r) == [CreateCase(dom.container.value.width as real, dom.container.value.height as real, ed.mountColor, ed.nextId)] + Objs(ed)[1..]
      && r.mountColor == ed.mountColor && r.nextId == ed.nextId + 1
  {
    ResizeKeepsOthers(ed, dom);
    ResizeWellFormed(ed, dom);
  }

  /** A second resize to the same size recreates the same case under a new identity. */
  lemma ResizeTwiceCase(ed: Editor, dom: Dom)
    requires WellFormed(ed) && ResizeApplies(ed, dom)
    ensures var width, height := dom.container.value.width as real, dom.container.value.height as real;
      && Objs(Resize(ed, dom))[0] == CreateCase(width, height, ed.mountColor, ed.nextId)
      && Objs(Resize(Resize(ed, dom), dom))[0] == CreateCase(width, height, ed.mountColor, ed.nextId + 1)
  {
    ResizeFacts(ed, dom);
    ResizeFacts(Resize(ed, dom), dom);
  }

  /** A second resize to the same size keeps the objects above the case. */
  lemma ResizeTwiceRest(ed: Editor, dom: Dom)
    requires WellFormed(ed) && ResizeApplies(ed, dom)
    ensures Objs(Resize(Resize(ed, dom), dom))[1..] == Objs(Resize(ed, dom))[1..]
  {
    ResizeFacts(ed, dom);
    ResizeFacts(Resize(ed, dom), dom);
  }

  /** The colour picker and the effect keyed on `caseColor`: `caseColor` takes the picked
      colour, and when that is a change the case keeps its identity and place and only its
      fill changes. Picking the colour already held changes no state, so the effect does not
      run and the case keeps whatever fill it has. */
  function PickColor(ed: Editor, color: string): (r: Editor)
    ensures r.caseColor == color
    ensures color == ed.caseColor ==> r == ed
    ensures r == ed.(canvas := r.canvas, caseColor := color)
    ensures ed.canvas.None? <==> r.canvas.None?
    ensures ed.canvas.Some? && color != ed.caseColor ==>
      && r.canvas.value.width == ed.canvas.value.width && r.canvas.value.height == ed.canvas.value.height
      && |Objs(r)| == |Objs(ed)|
      && (forall i :: 0 <= i < |Objs(ed)| ==> Objs(r)[i].id == Objs(ed)[i].id)
      && (forall i :: 0 <= i < |Objs(ed)| && Some(Objs(ed)[i].id) != ed.caseRef ==> Objs(r)[i] == Objs(ed)[i])
      && (forall i :: 0 <= i < |Objs(ed)| && Some(Objs(ed)[i].id) == ed.caseRef && Objs(ed)[i].kind.CaseShape? ==>
            Objs(r)[i] == Objs(ed)[i].(kind := CaseShape(color, Objs(ed)[i].kind.rx, Objs(ed)[i].kind.ry)))
  {
    if color == ed.caseColor then ed
    else if ed.canvas.None? || ed.caseRef.None? then ed.(caseColor := color)
    else
      var objs := Objs(ed);
      var painted := seq(|objs|, i requires 0 <= i < |objs| =>
        if objs[i].id == ed.caseRef.value && objs[i].kind.CaseShape?
        then objs[i].(kind := CaseShape(color, objs[i].kind.rx, objs[i].kind.ry))
        else objs[i]);
      ed.(canvas := Some(ed.canvas.value.(objects := painted)), caseColor := color)
  }

  /** Picking a colour keeps the editor well formed, and a new colour is now the case's fill. */
  lemma PickColorWellFormed(ed: Editor, color: string)
    requires WellFormed(ed)
    ensures WellFormed(PickColor(ed, color))
    ensures ed.canvas.Some? && color != ed.caseColor ==> Objs(PickColor(ed, color))[0].kind.fill == color
  {
    var r := PickColor(ed, color);
    if ed.canvas.Some? && color != ed.caseColor {
      var objs := Objs(ed);
      assert forall i :: 0 <= i < |objs| ==>
        (Objs(r)[i].selectable == objs[i].selectable && Objs(r)[i].kind.CaseShape? == objs[i].kind.CaseShape?);
      if ed.selected.Some? {
        var i :| 0 <= i < |objs| && objs[i].id == ed.selected.value && objs[i].selectable;
        assert Objs(r)[i].id == ed.selected.value;
      }
    }
  }

  /** After a colour change, a resize puts the mount-time fill back on the case, while
      `caseColor`, which a save sends, still holds the picked colour. */
  lemma ResizeForgetsPickedColor(ed: Editor, color: string, dom: Dom)
    requires WellFormed(ed) && ResizeApplies(ed, dom)
    ensures var r := Resize(PickColor(ed, color), dom);
      && Objs(r)[0].kind == CaseShape(ed.mountColor, CaseRadius, CaseRadius)
      && r.caseColor == color
      && Save(r, Threw).request == Some(SavePayload(DesignProductId, ed.designName, color))
  {
    PickColorWellFormed(ed, color);
  }

  /** Picking the same colour again after a resize does not repaint the case: `caseColor`
      did not change, so the effect does not run, and the case keeps the mount-time fill. */
  lemma RepickAfterResizeKeepsMountColor(ed: Editor, color: string, dom: Dom)
    requires WellFormed(ed) && ResizeApplies(ed, dom)
    ensures var r := PickColor(Resize(PickColor(ed, color), dom), color);
      && Objs(r)[0].kind == CaseShape(ed.mountColor, CaseRadius, CaseRadius)
      && r.caseColor == color
  {
    PickColorWellFormed(ed, color);
  }

  /** The font measurements fabric computes for the default text. */
  datatype TextMetrics = TextMetrics(width: real, height: real)

  /** The text box `addText` creates: default content and style, at scale 1, its left/top
      half the case's size minus the text's full size. */
  function DefaultTextBox(cs: SceneObject, m: TextMetrics, id: nat): (t: SceneObject)
    ensures t.kind == TextBox(DefaultText, DefaultFontSize, DefaultTextColor, DefaultFontFamily)
    ensures t.left + t.width * t.scaleX == cs.width / 2.0
    ensures t.top + t.height * t.scaleY == cs.height / 2.0
    ensures t.width == m.width && t.height == m.height && t.scaleX == 1.0 && t.scaleY == 1.0
    ensures t.selectable && t.id == id
  {
    var text := SceneObject(id, TextBox(DefaultText, DefaultFontSize, DefaultTextColor, DefaultFontFamily),
      0.0, 0.0, m.width, m.height, 1.0, 1.0, 0.0, true, true, false, false);
    text.(left := cs.width / 2.0 - text.width * text.scaleX,
          top := cs.height / 2.0 - text.height * text.scaleY)
  }

  /** `addText`: the default text box goes on top and becomes the selection; nothing happens
      without a canvas or a case. */
  function AddText(ed: Editor, m: TextMetrics): (r: Editor)
    ensures CaseObject(ed).None? ==> r == ed
    ensures CaseObject(ed).Some? ==>
      && r.canvas.Some?
      && Objs(r) == Objs(ed) + [DefaultTextBox(CaseObject(ed).value, m, ed.nextId)]
      && r.selected == Some(ed.nextId)
      && r == ed.(canvas := r.canvas, selected := r.selected, nextId := ed.nextId + 1)
  {
    match CaseObject(ed)
    case None => ed
    case Some(cs) =>
      var t := DefaultTextBox(cs, m, ed.nextId);
      ed.(canvas := Some(ed.canvas.value.(objects := Add(Objs(ed), t))), selected := Some(t.id), nextId := ed.nextId + 1)
  }

  /** Adding an object that is not a case, is selectable and carries the next identity, and
      selecting it, keeps the editor well formed. */
  lemma PushSelectedWellFormed(ed: Editor, o: SceneObject)
    requires WellFormed(ed) && ed.canvas.Some?
    requires o.id == ed.nextId && !o.kind.CaseShape? && o.selectable
    ensures WellFormed(ed.(canvas := Some(ed.canvas.value.(objects := Objs(ed) + [o])),
                           selected := Some(o.id), nextId := ed.nextId + 1))
  {
    var objs := Objs(ed) + [o];
    assert objs[|Objs(ed)|] == o;
  }

  /** Adding text keeps the editor well formed. */
  lemma AddTextWellFormed(ed: Editor, m: TextMetrics)
    requires WellFormed(ed)
    ensures WellFormed(AddText(ed, m))
  {
    if CaseObject(ed).Some? {
      PushSelectedWellFormed(ed, DefaultTextBox(CaseObject(ed).value, m, ed.nextId));
    }
  }

  /** A decoded image dimension (decoding never yields a zero-size image). */
  type PixelExtent = r: real | r > 0.0 witness 1.0

  /** How the file input and the image decode ended: no file chosen, a decode that threw, or
      an image whose width and height may be missing. */
  datatype Upload = NoFile | DecodeFailed | Decoded(width: Option<PixelExtent>, height: Option<PixelExtent>)

  /** The image `uploadImage` inserts: stretched on each axis so that its rendered size is the
      case's size (a missing dimension counts as 1), placed at the case's position. The scales
      go through fabric's setter, so a case side of 0 gives the minimum scale. */
  function FittedImage(cs: SceneObject, width: Option<PixelExtent>, height: Option<PixelExtent>, id: nat): (img: SceneObject)
    ensures img.kind.Picture? && img.selectable && img.id == id && img.angle == 0.0
    ensures img.width == width.GetOr(1.0) && img.height == height.GetOr(1.0)
    ensures cs.width != 0.0 ==> img.width * img.scaleX == Abs(cs.width)
    ensures cs.height != 0.0 ==> img.height * img.scaleY == Abs(cs.height)
    ensures cs.width == 0.0 ==> img.scaleX == MinScale
    ensures cs.height == 0.0 ==> img.scaleY == MinScale
    ensures (img.flipX <==> cs.width < 0.0) && (img.flipY <==> cs.height < 0.0)
    ensures img.left == cs.left && img.top == cs.top
  {
    var w: PixelExtent := width.GetOr(1.0);
    var h: PixelExtent := height.GetOr(1.0);
    var plain := SceneObject(id, Picture, cs.left, cs.top, w, h, 1.0, 1.0, 0.0, true, true, false, false);
    assert cs.width / w < 0.0 <==> cs.width < 0.0;
    assert cs.height / h < 0.0 <==> cs.height < 0.0;
    assert w * Abs(cs.width / w) == Abs(cs.width);
    assert h * Abs(cs.height / h) == Abs(cs.height);
    StoreScaleY(StoreScaleX(plain, cs.width / w), cs.height / h)
  }

  /** The continuation of `uploadImage`: the fitted image goes on top, the case is re-sent to
      the back, and the image becomes the selection. No file, a failed decode, or a missing
      canvas or case leaves everything as it was. */
  function InsertImage(ed: Editor, u: Upload): (r: Editor)
    ensures !u.Decoded? || CaseObject(ed).None? ==> r == ed
    ensures u.Decoded? && CaseObject(ed).Some? ==>
      && r.canvas.Some?
      && Objs(r) == SendToBack(Add(Objs(ed), FittedImage(CaseObject(ed).value, u.width, u.height, ed.nextId)), ed.caseRef.value)
      && r.selected == Some(ed.nextId)
      && r == ed.(canvas := r.canvas, selected := r.selected, nextId := ed.nextId + 1)
  {
    if !u.Decoded? || CaseObject(ed).None? then ed
    else
      var img := FittedImage(CaseObject(ed).value, u.width, u.height, ed.nextId);
      var stack := SendToBack(Add(Objs(ed), img), ed.caseRef.value);
      ed.(canvas := Some(ed.canvas.value.(objects := stack)), selected := Some(img.id), nextId := ed.nextId + 1)
  }

  /** On a well-formed editor the re-send to the back finds the case already there: the image
      simply lands on top, and the editor stays well formed. */
  lemma InsertImageOnTop(ed: Editor, u: Upload)
    requires WellFormed(ed) && u.Decoded? && ed.canvas.Some?
    ensures Objs(InsertImage(ed, u)) == Objs(ed) + [FittedImage(Objs(ed)[0], u.width, u.height, ed.nextId)]
    ensures WellFormed(InsertImage(ed, u))
    ensures Top(InsertImage(ed, u)) == Some(FittedImage(Objs(ed)[0], u.width, u.height, ed.nextId))
  {
    ExactlyOneCase(ed);
    var img := FittedImage(Objs(ed)[0], u.width, u.height, ed.nextId);
    var added := Add(Objs(ed), img);
    SendToBackAtBack(added);
    assert added[0] == Objs(ed)[0];
    PushSelectedWellFormed(ed, img);
    assert added[|added| - 1] == img;
  }

  /** The object drawn last, if there is one. */
  function Top(ed: Editor): Option<SceneObject> {
    if ed.canvas.Some? && |Objs(ed)| > 0 then Some(Objs(ed)[|Objs(ed)| - 1]) else None
  }

  /** The top object is a picture rendered at `width` by `height`. */
  predicate PictureOnTop(ed: Editor, width: real, height: real) {
    && Top(ed).Some? && Top(ed).value.kind.Picture?
    && Top(ed).value.width * Top(ed).value.scaleX == width
    && Top(ed).value.height * Top(ed).value.scaleY == height
  }

  /** The inserted image, the top object afterwards, renders exactly over the current case;
      on a side of the case that is 0 the image keeps fabric's minimum scale. */
  lemma ImageCoversCase(ed: Editor, u: Upload)
    requires WellFormed(ed) && u.Decoded? && ed.canvas.Some?
    ensures Objs(ed)[0].width != 0.0 && Objs(ed)[0].height != 0.0 ==>
      PictureOnTop(InsertImage(ed, u), Abs(Objs(ed)[0].width), Abs(Objs(ed)[0].height))
    ensures Top(InsertImage(ed, u)).Some?
    ensures Objs(ed)[0].width == 0.0 ==> Top(InsertImage(ed, u)).value.scaleX == MinScale
    ensures Objs(ed)[0].height == 0.0 ==> Top(InsertImage(ed, u)).value.scaleY == MinScale
  {
    InsertImageOnTop(ed, u);
    FittedOnTop(InsertImage(ed, u), Objs(ed)[0], u.width, u.height, ed.nextId);
  }

  /** Whatever editor has a fitted image on top shows it over the case it was fitted to. */
  lemma FittedOnTop(r: Editor, cs: SceneObject, width: Option<PixelExtent>, height: Option<PixelExtent>, id: nat)
    requires Top(r) == Some(FittedImage(cs, width, height, id))
    ensures cs.width != 0.0 && cs.height != 0.0 ==> PictureOnTop(r, Abs(cs.width), Abs(cs.height))
    ensures cs.width == 0.0 ==> Top(r).value.scaleX == MinScale
    ensures cs.height == 0.0 ==> Top(r).value.scaleY == MinScale
  {
  }

  /** An image whose decode finishes after a resize is fitted to the new case, not to the one
      that existed when the upload started. */
  lemma StaleDecodeFitsCurrentCase(ed: Editor, dom: Dom, u: Upload)
    requires WellFormed(ed) && ResizeApplies(ed, dom) && u.Decoded?
    ensures dom.container.value.width > 0 && dom.container.value.height > 0 ==>
      PictureOnTop(InsertImage(Resize(ed, dom), u), dom.container.value.width as real, dom.container.value.height as real)
  {
    var resized := Resize(ed, dom);
    assert WellFormed(resized) && resized.canvas.Some? by {
      ResizeWellFormed(ed, dom);
    }
    assert Objs(resized)[0].width == dom.container.value.width as real
      && Objs(resized)[0].height == dom.container.value.height as real by {
      ResizeKeepsOthers(ed, dom);
    }
    ImageCoversCase(resized, u);
  }

  /** The `selection:created` / `selection:updated` handler: the selection becomes fabric's
      active object. */
  function UpdateSelected(ed: Editor, active: Option<nat>): (r: Editor)
    ensures r.selected == active && r == ed.(selected := r.selected)
    ensures WellFormed(ed) && (active.None? || (ed.canvas.Some? && SelectableOn(Objs(ed), active.value))) ==>
      WellFormed(r)
  {
    ed.(selected := active)
  }

  /** Selecting a selectable object on the canvas makes it the object the settings panel
      shows and edits. */
  lemma SelectShowsObject(ed: Editor, id: nat)
    requires WellFormed(ed) && ed.canvas.Some? && SelectableOn(Objs(ed), id)
    ensures var r := UpdateSelected(ed, Some(id));
      && SelectedObject(r).Some?
      && SelectedObject(r).value.id == id
      && SelectedObject(r).value in Objs(ed)
      && SelectedObject(r).value.selectable
      && !PanelOf(r).NoFields?
  {
    var objs := Objs(ed);
    var i :| 0 <= i < |objs| && objs[i].id == id && objs[i].selectable;
    assert Find(objs, id) == Some(objs[i]);
  }

  /** The `selection:cleared` handler. */
  function SelectionCleared(ed: Editor): (r: Editor)
    ensures r.selected.None? && r == ed.(selected := r.selected)
    ensures PanelOf(r) == NoFields && SettingsTitle(r) == TitleNone
    ensures forall e :: UpdateObject(r, e) == r
    ensures WellFormed(ed) ==> WellFormed(r)
  {
    ed.(selected := None)
  }

  /** A mouse press as fabric resolves it: on a selectable object it makes that object
      active; anywhere else (empty canvas, the non-evented case) it clears the selection. */
  function MouseDown(ed: Editor, target: Option<nat>): (r: Editor)
    ensures WellFormed(ed) ==> WellFormed(r)
    ensures r == ed.(selected := r.selected)
    ensures r.selected.Some? ==> r.selected == target
    ensures ed.canvas.Some? && target.Some? && SelectableOn(Objs(ed), target.value) ==> r.selected == target
    ensures ed.canvas.None? || target.None? || !SelectableOn(Objs(ed), target.value) ==> r.selected.None?
  {
    if ed.canvas.Some? && target.Some? && SelectableOn(Objs(ed), target.value) then UpdateSelected(ed, target)
    else SelectionCleared(ed)
  }

  /** The properties the settings panel writes through `updateObject`. A font change makes
      fabric lay the text out again; `measured` is the size that layout gives the box. */
  datatype Edit =
    | SetLeft(value: real)
    | SetTop(value: real)
    | SetScaleX(value: real)
    | SetScaleY(value: real)
    | SetAngle(value: real)
    | SetFontFamily(family: string, measured: TextMetrics)
    | SetFontSize(value: real, measured: TextMetrics)

  /** The edit is a font change on a text box, which fabric measures again. */
  predicate Relayout(o: SceneObject, e: Edit) {
    (e.SetFontFamily? || e.SetFontSize?) && o.kind.TextBox?
  }

  /** The edit writes a negative scale, which fabric turns into mirroring. */
  predicate Mirrors(e: Edit) {
    (e.SetScaleX? || e.SetScaleY?) && e.value < 0.0
  }

  /** `selected.set(key, value)` on one object. Scales go through fabric's normalisation, and a
      font change on a text box takes the re-measured size. The font keys are only offered for
      text boxes and change nothing on other objects. */
  function ApplyEdit(o: SceneObject, e: Edit): (r: SceneObject)
    ensures r.id == o.id && r.selectable == o.selectable && r.evented == o.evented
    ensures r.kind.CaseShape? == o.kind.CaseShape? && r.kind.Picture? == o.kind.Picture? && r.kind.TextBox? == o.kind.TextBox?
    ensures (e.SetLeft? ==> r.left == e.value) && (!e.SetLeft? ==> r.left == o.left)
    ensures (e.SetTop? ==> r.top == e.value) && (!e.SetTop? ==> r.top == o.top)
    ensures (e.SetAngle? ==> r.angle == e.value) && (!e.SetAngle? ==> r.angle == o.angle)
    ensures e.SetScaleX? ==> r == StoreScaleX(o, e.value)
    ensures e.SetScaleY? ==> r == StoreScaleY(o, e.value)
    ensures !e.SetScaleX? ==> r.scaleX == o.scaleX && r.flipX == o.flipX
    ensures !e.SetScaleY? ==> r.scaleY == o.scaleY && r.flipY == o.flipY
    ensures Relayout(o, e) ==> r.width == e.measured.width && r.height == e.measured.height
    ensures !Relayout(o, e) ==> r.width == o.width && r.height == o.height
    ensures e.SetFontFamily? && o.kind.TextBox? ==> r.kind == o.kind.(fontFamily := e.family)
    ensures e.SetFontSize? && o.kind.TextBox? ==> r.kind == o.kind.(fontSize := e.value)
    ensures !Relayout(o, e) ==> r.kind == o.kind
  {
    match e
    case SetLeft(v) => o.(left := v)
    case SetTop(v) => o.(top := v)
    case SetScaleX(v) => StoreScaleX(o, v)
    case SetScaleY(v) => StoreScaleY(o, v)
    case SetAngle(v) => o.(angle := v)
    case SetFontFamily(f, m) =>
      if o.kind.TextBox?
      then o.(kind := TextBox(o.kind.text, o.kind.fontSize, o.kind.fill, f), width := m.width, height := m.height)
      else o
    case SetFontSize(v, m) =>
      if o.kind.TextBox?
      then o.(kind := TextBox(o.kind.text, v, o.kind.fill, o.kind.fontFamily), width := m.width, height := m.height)
      else o
  }

  /** Writing the same property twice is the same as writing it once, except for a negative
      scale: each write mirrors the object, so the second undoes the first's mirroring. */
  lemma ApplyEditTwice(o: SceneObject, e: Edit)
    ensures !Mirrors(e) ==> ApplyEdit(ApplyEdit(o, e), e) == ApplyEdit(o, e)
    ensures e.SetScaleX? && e.value < 0.0 ==> ApplyEdit(ApplyEdit(o, e), e) == ApplyEdit(o, e).(flipX := o.flipX)
    ensures e.SetScaleY? && e.value < 0.0 ==> ApplyEdit(ApplyEdit(o, e), e) == ApplyEdit(o, e).(flipY := o.flipY)
  {
  }

  /** `updateObject`: with no selection nothing changes; otherwise the edit is applied to the
      selected object and to nothing else. */
  function UpdateObject(ed: Editor, e: Edit): (r: Editor)
    ensures ed.selected.None? || ed.canvas.None? ==> r == ed
    ensures r == ed.(canvas := r.canvas)
    ensures ed.canvas.Some? ==>
      && r.canvas.Some?
      && r.canvas.value.width == ed.canvas.value.width && r.canvas.value.height == ed.canvas.value.height
      && |Objs(r)| == |Objs(ed)|
      && (forall i :: 0 <= i < |Objs(ed)| && Some(Objs(ed)[i].id) != ed.selected ==> Objs(r)[i] == Objs(ed)[i])
      && (forall i :: 0 <= i < |Objs(ed)| && Some(Objs(ed)[i].id) == ed.selected ==> Objs(r)[i] == ApplyEdit(Objs(ed)[i], e))
  {
    if ed.selected.None? || ed.canvas.None? then ed
    else
      var objs := Objs(ed);
      var edited := seq(|objs|, i requires 0 <= i < |objs| =>
        if objs[i].id == ed.selected.value then ApplyEdit(objs[i], e) else objs[i]);
      ed.(canvas := Some(ed.canvas.value.(objects := edited)))
  }

  /** An edit keeps the editor well formed, and the selected object reads back the edit. */
  lemma UpdateObjectWellFormed(ed: Editor, e: Edit)
    requires WellFormed(ed)
    ensures WellFormed(UpdateObject(ed, e))
    ensures SelectedObject(ed).Some? ==> SelectedObject(UpdateObject(ed, e)) == Some(ApplyEdit(SelectedObject(ed).value, e))
  {
    var r := UpdateObject(ed, e);
    if ed.selected.Some? && ed.canvas.Some? {
      var objs := Objs(ed);
      assert forall i :: 0 <= i < |objs| ==>
        (Objs(r)[i].id == objs[i].id && Objs(r)[i].selectable == objs[i].selectable && Objs(r)[i].kind.CaseShape? == objs[i].kind.CaseShape?);
      var i :| 0 <= i < |objs| && objs[i].id == ed.selected.value && objs[i].selectable;
      assert Objs(r)[i].id == ed.selected.value;
      assert Find(objs, ed.selected.value) == Some(objs[i]);
      assert Find(Objs(r), ed.selected.value) == Some(Objs(r)[i]);
    }
  }

  /** JavaScript's `Math.round`: to the nearest integer, halves upward. */
  function Round(x: real): (n: int)
    ensures n as real - 0.5 <= x < n as real + 0.5
  {
    (x + 0.5).Floor
  }

  /** The W and H fields: intrinsic size times scale, rounded. */
  function DisplayedWidth(o: SceneObject): int {
    Round(o.width * o.scaleX)
  }

  function DisplayedHeight(o: SceneObject): int {
    Round(o.height * o.scaleY)
  }

  /** The W field's handler: the requested width becomes a horizontal scale relative to the
      intrinsic width. A zero intrinsic width leaves the object alone. */
  function EditWidth(ed: Editor, requested: real): (r: Editor)
    ensures SelectedObject(ed).None? || SelectedObject(ed).value.width == 0.0 ==> r == ed
    ensures SelectedObject(ed).Some? && SelectedObject(ed).value.width != 0.0 ==>
      r == UpdateObject(ed, SetScaleX(requested / SelectedObject(ed).value.width))
  {
    match SelectedObject(ed)
    case None => ed
    case Some(o) => if o.width == 0.0 then ed else UpdateObject(ed, SetScaleX(requested / o.width))
  }

  /** The H field's handler, the same on the vertical axis. */
  function EditHeight(ed: Editor, requested: real): (r: Editor)
    ensures SelectedObject(ed).None? || SelectedObject(ed).value.height == 0.0 ==> r == ed
    ensures SelectedObject(ed).Some? && SelectedObject(ed).value.height != 0.0 ==>
      r == UpdateObject(ed, SetScaleY(requested / SelectedObject(ed).value.height))
  {
    match SelectedObject(ed)
    case None => ed
    case Some(o) => if o.height == 0.0 then ed else UpdateObject(ed, SetScaleY(requested / o.height))
  }

  /** What typing `requested` into W does to an object `o` of non-zero intrinsic width,
      giving `w`: for a positive intrinsic width a non-zero request renders at its magnitude,
      so W then shows it rounded, and mirrors the object exactly when it is negative; a
      request of 0 leaves fabric's minimum scale. The height and the intrinsic size stay put. */
  predicate WidthEdited(o: SceneObject, w: SceneObject, requested: real) {
    && w.width == o.width && w.height == o.height
    && w.scaleY == o.scaleY && w.flipY == o.flipY
    && (o.width > 0.0 && requested != 0.0 ==>
          w.width * w.scaleX == Abs(requested) && DisplayedWidth(w) == Round(Abs(requested)))
    && (o.width > 0.0 ==> (w.flipX <==> (o.flipX != (requested < 0.0))))
    && (requested == 0.0 ==> w.scaleX == MinScale && DisplayedWidth(w) == Round(o.width * MinScale))
  }

  /** The same for H on the vertical axis. */
  predicate HeightEdited(o: SceneObject, h: SceneObject, requested: real) {
    && h.height == o.height && h.width == o.width
    && h.scaleX == o.scaleX && h.flipX == o.flipX
    && (o.height > 0.0 && requested != 0.0 ==>
          h.height * h.scaleY == Abs(requested) && DisplayedHeight(h) == Round(Abs(requested)))
    && (o.height > 0.0 ==> (h.flipY <==> (o.flipY != (requested < 0.0))))
    && (requested == 0.0 ==> h.scaleY == MinScale && DisplayedHeight(h) == Round(o.height * MinScale))
  }

  /** Typing a width into W edits the selected object as `WidthEdited` describes. */
  lemma WidthEditRoundTrip(ed: Editor, requested: real)
    requires WellFormed(ed) && SelectedObject(ed).Some? && SelectedObject(ed).value.width != 0.0
    ensures SelectedObject(EditWidth(ed, requested)).Some?
    ensures WidthEdited(SelectedObject(ed).value, SelectedObject(EditWidth(ed, requested)).value, requested)
  {
    var o := SelectedObject(ed).value;
    var e := SetScaleX(requested / o.width);
    assert SelectedObject(EditWidth(ed, requested)) == Some(ApplyEdit(o, e)) by {
      UpdateObjectWellFormed(ed, e);
    }
    ScaleXForWidth(o, requested);
  }

  /** The scale the W handler writes, on one object. */
  lemma ScaleXForWidth(o: SceneObject, requested: real)
    requires o.width != 0.0
    ensures WidthEdited(o, ApplyEdit(o, SetScaleX(requested / o.width)), requested)
  {
    var v := requested / o.width;
    if o.width > 0.0 {
      assert v < 0.0 <==> requested < 0.0;
      assert o.width * Abs(v) == Abs(requested);
    }
  }

  /** Typing a height into H edits the selected object as `HeightEdited` describes. */
  lemma HeightEditRoundTrip(ed: Editor, requested: real)
    requires WellFormed(ed) && SelectedObject(ed).Some? && SelectedObject(ed).value.height != 0.0
    ensures SelectedObject(EditHeight(ed, requested)).Some?
    ensures HeightEdited(SelectedObject(ed).value, SelectedObject(EditHeight(ed, requested)).value, requested)
  {
    var o := SelectedObject(ed).value;
    var e := SetScaleY(requested / o.height);
    assert SelectedObject(EditHeight(ed, requested)) == Some(ApplyEdit(o, e)) by {
      UpdateObjectWellFormed(ed, e);
    }
    ScaleYForHeight(o, requested);
  }

  /** The scale the H handler writes, on one object. */
  lemma ScaleYForHeight(o: SceneObject, requested: real)
    requires o.height != 0.0
    ensures HeightEdited(o, ApplyEdit(o, SetScaleY(requested / o.height)), requested)
  {
    var v := requested / o.height;
    if o.height > 0.0 {
      assert v < 0.0 <==> requested < 0.0;
      assert o.height * Abs(v) == Abs(requested);
    }
  }

  /** What the settings panel shows for the selection. */
  datatype Panel =
    | NoFields
    | TransformFields(x: int, y: int, w: int, h: int, angle: real)
    | TextFields(fontFamily: string, fontSize: real)

  function PanelOf(ed: Editor): (p: Panel)
    ensures p.NoFields? <==> SelectedObject(ed).None?
    ensures p.TextFields? <==> SelectedObject(ed).Some? && SelectedObject(ed).value.kind.TextBox?
    ensures p.TransformFields? ==>
      var o := SelectedObject(ed).value;
      p.x == Round(o.left) && p.y == Round(o.top) && p.w == DisplayedWidth(o) && p.h == DisplayedHeight(o) && p.angle == o.angle
    ensures p.TextFields? ==> p.fontFamily != "" && p.fontSize != 0.0
    ensures p.TextFields? ==>
      var k := SelectedObject(ed).value.kind;
      && p.fontFamily == (if k.fontFamily == "" then DefaultFontFamily else k.fontFamily)
      && p.fontSize == (if k.fontSize == 0.0 then DefaultFontSize else k.fontSize)
  {
    match SelectedObject(ed)
    case None => NoFields
    case Some(o) =>
      if o.kind.TextBox? then
        TextFields(if o.kind.fontFamily == "" then DefaultFontFamily else o.kind.fontFamily,
                   if o.kind.fontSize == 0.0 then DefaultFontSize else o.kind.fontSize)
      else TransformFields(Round(o.left), Round(o.top), DisplayedWidth(o), DisplayedHeight(o), o.angle)
  }

  const TitleNone := "НАСТРОЙКИ"
  const TitleText := "НАСТРОЙКИ ТЕКСТА"
  const TitleImage := "НАСТРОЙКИ ИЗОБРАЖЕНИЯ"
  const TitleObject := "НАСТРОЙКИ ОБЪЕКТА"

  /** `getSettingsTitle`. */
  function SettingsTitle(ed: Editor): string {
    match SelectedObject(ed)
    case None => TitleNone
    case Some(o) =>
      if o.kind.TextBox? then TitleText else if o.kind.Picture? then TitleImage else TitleObject
  }

  /** The title and the panel agree: the plain title goes with no fields, the text title with
      the font fields, and the other two with the position and size fields; in a well-formed
      editor the generic object title never shows. */
  lemma TitleMatchesPanel(ed: Editor)
    ensures SettingsTitle(ed) == TitleNone <==> PanelOf(ed).NoFields?
    ensures SettingsTitle(ed) == TitleText <==> PanelOf(ed).TextFields?
    ensures SettingsTitle(ed) in {TitleImage, TitleObject} <==> PanelOf(ed).TransformFields?
    ensures WellFormed(ed) ==> SettingsTitle(ed) != TitleObject
  {
    if WellFormed(ed) && SelectedObject(ed).Some? {
      var objs := Objs(ed);
      var i :| 0 <= i < |objs| && objs[i].id == ed.selected.value && objs[i].selectable;
      assert SelectedObject(ed) == Some(objs[i]);
    }
  }

  /** A tool-bar click. The image button also clicks the hidden file input, but that input
      is only rendered while the image tool is active, and the click happens before the
      re-render that the tool change causes: the picker opens only when the image tool was
      already active. */
  datatype ToolClick = ToolClick(editor: Editor, opensFilePicker: bool)

  function ChooseTool(ed: Editor, t: Tool): (r: ToolClick)
    ensures r.editor.tool == t
    ensures r.editor == ed.(tool := t)
    ensures r.opensFilePicker <==> t == ImageTool && ed.tool == ImageTool
  {
    ToolClick(ed.(tool := t), t == ImageTool && ed.tool == ImageTool)
  }

  /** From any other tool the image button needs a second click to open the picker. */
  lemma ImageButtonOpensPickerOnSecondClick(ed: Editor)
    requires ed.tool != ImageTool
    ensures !ChooseTool(ed, ImageTool).opensFilePicker
    ensures ChooseTool(ChooseTool(ed, ImageTool).editor, ImageTool).opensFilePicker
  {
  }

  /** The side panel each tool shows. */
  datatype ToolPanel = AddTextButton | FilePicker | ColorPicker

  function ToolPanelOf(t: Tool): ToolPanel {
    match t
    case TextTool => AddTextButton
    case ImageTool => FilePicker
    case CaseTool => ColorPicker
  }

  /** Switching tools changes the side panel only: the scene and the selection stay, and each
      tool has its own panel. */
  lemma ToolSwitchKeepsScene(ed: Editor, t: Tool, u: Tool)
    ensures ChooseTool(ed, t).editor.canvas == ed.canvas
    ensures SelectedObject(ChooseTool(ed, t).editor) == SelectedObject(ed)
    ensures PanelOf(ChooseTool(ed, t).editor) == PanelOf(ed)
    ensures ToolPanelOf(t) == ToolPanelOf(u) <==> t == u
  {
  }

  /** The design-name field. */
  function Rename(ed: Editor, name: string): (r: Editor)
    ensures r.designName == name && r == ed.(designName := r.designName)
    ensures forall reply :: (Save(r, reply).request ==
      if ed.canvas.Some? then Some(SavePayload(DesignProductId, name, ed.caseColor)) else None)
    ensures forall reply :: Save(r, reply).effect == Save(ed, reply).effect
    ensures WellFormed(ed) ==> WellFormed(r)
  {
    ed.(designName := name)
  }

  const DesignProductId := "1"

  /** The form fields of the save request (the PNG itself is not modelled). */
  datatype SavePayload = SavePayload(productId: string, name: string, backgroundColor: string)

  /** How the save request ended: an HTTP status, or an exception (the request, or turning
      the PNG into a file, failed). */
  datatype SaveReply = Responded(status: int) | Threw

  datatype SaveEffect = StayInEditor | GoBack

  /** `request` holds the form fields the save attempted. When turning the PNG into a file
      throws, the attempt ends before the upload goes out; that case is `Threw`, like a failed
      upload. */
  datatype SaveResult = SaveResult(request: Option<SavePayload>, effect: SaveEffect)

  predicate IsOk(status: int) {
    200 <= status <= 299
  }

  /** `handleSaveDesign`: without a canvas nothing is sent; otherwise the payload carries the
      fixed product id, the name as typed and the current `caseColor`. Only a failure status
      other than 401 and 403 leaves the editor. */
  function Save(ed: Editor, reply: SaveReply): (r: SaveResult)
    ensures ed.canvas.None? ==> r == SaveResult(None, StayInEditor)
    ensures ed.canvas.Some? ==> r.request == Some(SavePayload(DesignProductId, ed.designName, ed.caseColor))
    ensures r.effect == GoBack <==>
      ed.canvas.Some? && reply.Responded? && !IsOk(reply.status) && reply.status != 401 && reply.status != 403
  {
    if ed.canvas.None? then SaveResult(None, StayInEditor)
    else
      var payload := SavePayload(DesignProductId, ed.designName, ed.caseColor);
      match reply
      case Threw => SaveResult(Some(payload), StayInEditor)
      case Responded(status) =>
        if IsOk(status) then SaveResult(Some(payload), StayInEditor)
        else if status == 401 || status == 403 then SaveResult(Some(payload), StayInEditor)
        else SaveResult(Some(payload), GoBack)
  }

  /** Saving changes nothing in the editor's own state, so a save decision does not depend on
      which tool is active. */
  lemma SaveIgnoresTool(ed: Editor, t: Tool, reply: SaveReply)
    ensures Save(ChooseTool(ed, t).editor, reply) == Save(ed, reply)
  {
  }

  /** Everything that can happen to a mounted editor. */
  datatype Action =
    | Resized(dom: Dom)
    | ColorPicked(color: string)
    | TextAdded(metrics: TextMetrics)
    | ImageUploaded(upload: Upload)
    | Pressed(target: Option<nat>)
    | Cleared
    | Edited(edit: Edit)
    | WidthTyped(size: real)
    | HeightTyped(size: real)
    | ToolChosen(tool: Tool)
    | Renamed(name: string)

  function Step(ed: Editor, a: Action): Editor {
    match a
    case Resized(dom) => Resize(ed, dom)
    case ColorPicked(c) => PickColor(ed, c)
    case TextAdded(m) => AddText(ed, m)
    case ImageUploaded(u) => InsertImage(ed, u)
    case Pressed(target) => MouseDown(ed, target)
    case Cleared => SelectionCleared(ed)
    case Edited(e) => UpdateObject(ed, e)
    case WidthTyped(v) => EditWidth(ed, v)
    case HeightTyped(v) => EditHeight(ed, v)
    case ToolChosen(t) => ChooseTool(ed, t).editor
    case Renamed(n) => Rename(ed, n)
  }

  /** An editing session: the mount effect, then the actions in order. */
  function Session(dom: Dom, actions: seq<Action>): Editor {
    if |actions| == 0 then Mount(Initial, dom)
    else Step(Session(dom, actions[..|actions| - 1]), actions[|actions| - 1])
  }

  lemma StepWellFormed(ed: Editor, a: Action)
    requires WellFormed(ed)
    ensures WellFormed(Step(ed, a))
    ensures Step(ed, a).mountColor == ed.mountColor
  {
    match a
    case Resized(dom) => ResizeWellFormed(ed, dom);
    case ColorPicked(c) => PickColorWellFormed(ed, c);
    case TextAdded(m) => AddTextWellFormed(ed, m);
    case ImageUploaded(u) =>
      if u.Decoded? && ed.canvas.Some? { InsertImageOnTop(ed, u); }
    case Pressed(target) =>
    case Cleared =>
    case Edited(e) => UpdateObjectWellFormed(ed, e);
    case WidthTyped(v) =>
      if SelectedObject(ed).Some? && SelectedObject(ed).value.width != 0.0 {
        UpdateObjectWellFormed(ed, SetScaleX(v / SelectedObject(ed).value.width));
      }
    case HeightTyped(v) =>
      if SelectedObject(ed).Some? && SelectedObject(ed).value.height != 0.0 {
        UpdateObjectWellFormed(ed, SetScaleY(v / SelectedObject(ed).value.height));
      }
    case ToolChosen(t) =>
    case Renamed(n) =>
  }

  /** Throughout any session the case is the bottom object and the only case, and the colour
      it is recreated with on resize is the initial white. */
  lemma {:induction false} SessionInvariant(dom: Dom, actions: seq<Action>)
    ensures WellFormed(Session(dom, actions))
    ensures Session(dom, actions).mountColor == InitialColor
    ensures Session(dom, actions).canvas.Some? ==>
      && CaseCount(Objs(Session(dom, actions))) == 1
      && Objs(Session(dom, actions))[0].kind.CaseShape?
      && Some(Objs(Session(dom, actions))[0].id) == Session(dom, actions).caseRef
  {
    if |actions| > 0 {
      var prev := Session(dom, actions[..|actions| - 1]);
      SessionInvariant(dom, actions[..|actions| - 1]);
      StepWellFormed(prev, actions[|actions| - 1]);
    }
    if Session(dom, actions).canvas.Some? {
      ExactlyOneCase(Session(dom, actions));
    }
  }
}

=== FILE: digits.dfy ===
/** Decimal digit strings: the `^\d+$` price inputs, `Number(...)` of such a string, and the
    decimal text a template literal produces for an integer. */
module Digits {

  /** `\d` in a JavaScript regular expression without the `u` flag: ASCII digits only. */
  predicate IsDigit(c: char) {
    '0' <= c <= '9'
  }

  /** The string matches `/^\d+$/`. */
  predicate IsDigits(s: string) {
    |s| > 0 && forall i :: 0 <= i < |s| ==> IsDigit(s[i])
  }

  function DigitValue(c: char): nat
    requires IsDigit(c)
  {
    (c as int) - ('0' as int)
  }

  function DigitChar(d: nat): (c: char)
    requires d < 10
    ensures IsDigit(c) && DigitValue(c) == d
  {
    ('0' as int + d) as char
  }

  /** The number a string of decimal digits denotes, read left to right. */
  function Value(s: string): nat
    requires forall i :: 0 <= i < |s| ==> IsDigit(s[i])
  {
    if |s| == 0 then 0 else Value(s[..|s| - 1]) * 10 + DigitValue(s[|s| - 1])
  }

  /** The shortest decimal text of `n`, as `String(n)` writes it. */
  function Text(n: nat): (r: string)
    ensures IsDigits(r)
    ensures |r| == 1 || r[0] != '0'
  {
    if n < 10 then [DigitChar(n)] else Text(n / 10) + [DigitChar(n % 10)]
  }

  /** Reading back the text of `n` gives `n`. */
  lemma {:induction false} ValueOfText(n: nat)
    ensures Value(Text(n)) == n
  {
    if n >= 10 {
      var t := Text(n);
      assert t[..|t| - 1] == Text(n / 10);
      ValueOfText(n / 10);
    }
  }

  /** `String(i)` for an integer: a minus sign before the digits of a negative value. */
  function IntText(i: int): (r: string)
    ensures |r| > 0
    ensures i >= 0 <==> IsDigits(r)
    ensures i >= 0 ==> Value(r) == i && (|r| == 1 || r[0] != '0')
    ensures i < 0 ==> r[0] == '-' && IsDigits(r[1..]) && Value(r[1..]) == -i && (|r| == 2 || r[1] != '0')
  {
    if i < 0 then
      ValueOfText(-i);
      var r := "-" + Text(-i);
      assert r[1..] == Text(-i);
      assert !IsDigit(r[0]);
      r
    else
      ValueOfText(i);
      Text(i)
  }
}

=== FILE: scene.dfy ===
/** The fabric canvas's object collection as the case editor uses it: an ordered stack of
    objects (index 0 is drawn first, at the back) with add, remove by identity and
    send-to-back. */
module Scene {
  import opened Wrappers
  import opened Seqs

  /** The three kinds of object the editor puts on the canvas. */
  datatype Kind =
    | CaseShape(fill: string, rx: real, ry: real)
    | Picture
    | TextBox(text: string, fontSize: real, fill: string, fontFamily: string)

  /** A fabric object. `id` stands for the object's identity (fabric compares references).
      `flipX` and `flipY` say whether the object is drawn mirrored on that axis. */
  datatype SceneObject = SceneObject(
    id: nat,
    kind: Kind,
    left: real,
    top: real,
    width: real,
    height: real,
    scaleX: real,
    scaleY: real,
    angle: real,
    selectable: bool,
    evented: bool,
    flipX: bool,
    flipY: bool)

  type Objects = seq<SceneObject>

  /** The scale fabric stores when it is asked for a scale of 0. */
  const MinScale := 0.0001

  /** The magnitude of a scale. */
  function Abs(x: real): real {
    if x < 0.0 then -x else x
  }

  /** `set("scaleX", v)` as fabric's setter performs it: a scale of 0 is stored as `MinScale`,
      and a negative scale mirrors the object and is stored as its magnitude. Nothing but the
      horizontal scale and mirroring changes. */
  function StoreScaleX(o: SceneObject, v: real): (r: SceneObject)
    ensures r.scaleX > 0.0
    ensures v != 0.0 ==> r.scaleX == Abs(v)
    ensures v == 0.0 ==> r.scaleX == MinScale
    ensures r.flipX <==> (o.flipX != (v < 0.0))
    ensures r == o.(scaleX := r.scaleX, flipX := r.flipX)
  {
    if v == 0.0 then o.(scaleX := MinScale)
    else if v < 0.0 then o.(scaleX := -v, flipX := !o.flipX)
    else o.(scaleX := v)
  }

  /** `set("scaleY", v)`, the same on the vertical axis. */
  function StoreScaleY(o: SceneObject, v: real): (r: SceneObject)
    ensures r.scaleY > 0.0
    ensures v != 0.0 ==> r.scaleY == Abs(v)
    ensures v == 0.0 ==> r.scaleY == MinScale
    ensures r.flipY <==> (o.flipY != (v < 0.0))
    ensures r == o.(scaleY := r.scaleY, flipY := r.flipY)
  {
    if v == 0.0 then o.(scaleY := MinScale)
    else if v < 0.0 then o.(scaleY := -v, flipY := !o.flipY)
    else o.(scaleY := v)
  }

  predicate Contains(objs: Objects, id: nat) {
    exists i :: 0 <= i < |objs| && objs[i].id == id
  }

  /** No identity occurs twice: an object is on the canvas at most once. */
  predicate UniqueIds(objs: Objects) {
    forall i, j :: 0 <= i < j < |objs| ==> objs[i].id != objs[j].id
  }

  /** `indexOf` by identity. */
  function IndexOf(objs: Objects, id: nat): (r: Option<nat>)
    ensures r.None? <==> !Contains(objs, id)
    ensures r.Some? ==> r.value < |objs| && objs[r.value].id == id
    ensures r.Some? ==> forall j :: 0 <= j < r.value ==> objs[j].id != id
  {
    if |objs| == 0 then None
    else if objs[0].id == id then Some(0)
    else
      match IndexOf(objs[1..], id)
      case None =>
        assert forall i :: 1 <= i < |objs| ==> objs[i] == objs[1..][i - 1];
        None
      case Some(k) => Some(k + 1)
  }

  /** The object with this identity, if it is on the canvas. */
  function Find(objs: Objects, id: nat): (r: Option<SceneObject>)
    ensures r.None? <==> !Contains(objs, id)
    ensures r.Some? ==> r.value in objs && r.value.id == id
    ensures UniqueIds(objs) ==> forall i :: 0 <= i < |objs| && objs[i].id == id ==> r == Some(objs[i])
  {
    match IndexOf(objs, id)
    case None => None
    case Some(k) => Some(objs[k])
  }

  /** `canvas.add`: the object goes on top of the stack. */
  function Add(objs: Objects, o: SceneObject): Objects {
    objs + [o]
  }

  /** `canvas.remove`: the first occurrence of the object with this identity is taken out;
      an object not on the canvas is ignored. */
  function Remove(objs: Objects, id: nat): (r: Objects)
    ensures !Contains(objs, id) ==> r == objs
    ensures Contains(objs, id) ==> |r| == |objs| - 1
    ensures forall i :: 0 <= i < |r| ==> r[i] in objs
    ensures UniqueIds(objs) ==> UniqueIds(r) && !Contains(r, id)
  {
    match IndexOf(objs, id)
    case None => objs
    case Some(k) =>
      var r := objs[..k] + objs[k + 1..];
      assert forall i :: 0 <= i < |r| ==> r[i] == (if i < k then objs[i] else objs[i + 1]);
      r
  }

  /** With distinct identities, removing one object keeps exactly the others, in order. */
  lemma RemoveIsFilter(objs: Objects, id: nat)
    requires UniqueIds(objs)
    ensures Remove(objs, id) == Filter(objs, (o: SceneObject) => o.id != id)
  {
    var p := (o: SceneObject) => o.id != id;
    match IndexOf(objs, id)
    case None =>
      FilterAll(objs, p);
    case Some(k) =>
      assert forall i :: 0 <= i < |objs| && i != k ==> p(objs[i]);
      FilterDropsOne(objs, k, p);
  }

  /** `canvas.sendObjectToBack`: the object moves to index 0 and the others keep their
      relative order. The editor only sends objects that are on the canvas; for an identity
      that is not there the stack is returned as it is. */
  function SendToBack(objs: Objects, id: nat): (r: Objects)
    ensures |r| == |objs| && multiset(r) == multiset(objs)
    ensures !Contains(objs, id) ==> r == objs
    ensures Contains(objs, id) ==> r[0].id == id && r[1..] == Remove(objs, id)
    ensures UniqueIds(objs) ==> UniqueIds(r)
  {
    match IndexOf(objs, id)
    case None => objs
    case Some(k) =>
      MoveToFront(objs, k);
      [objs[k]] + (objs[..k] + objs[k + 1..])
  }

  /** Moving the object at `k` to the front permutes the stack and keeps identities distinct. */
  lemma MoveToFront(objs: Objects, k: nat)
    requires k < |objs|
    ensures var r := [objs[k]] + (objs[..k] + objs[k + 1..]);
      && |r| == |objs|
      && multiset(r) == multiset(objs)
      && (UniqueIds(objs) ==> UniqueIds(r))
  {
    var r := [objs[k]] + (objs[..k] + objs[k + 1..]);
    calc {
      multiset(objs);
      { assert objs == objs[..k] + [objs[k]] + objs[k + 1..]; }
      multiset(objs[..k]) + multiset([objs[k]]) + multiset(objs[k + 1..]);
      multiset(r);
    }
    if UniqueIds(objs) {
      forall i, j | 0 <= i < j < |r| ensures r[i].id != r[j].id {
        var oi := if i == 0 then k else if i - 1 < k then i - 1 else i;
        var oj := if j - 1 < k then j - 1 else j;
        assert r[i] == objs[oi] && r[j] == objs[oj] && oi != oj;
      }
    }
  }

  /** Sending the bottom object to the back changes nothing. */
  lemma SendToBackAtBack(objs: Objects)
    requires |objs| > 0
    ensures SendToBack(objs, objs[0].id) == objs
  {
    assert IndexOf(objs, objs[0].id) == Some(0);
    assert objs[..0] + objs[1..] == objs[1..];
    assert [objs[0]] + objs[1..] == objs;
  }

  /** Adding an object whose identity is new and sending it to the back puts it under the
      existing stack, which is otherwise untouched. */
  lemma AddThenSendToBack(objs: Objects, o: SceneObject)
    requires !Contains(objs, o.id)
    ensures SendToBack(Add(objs, o), o.id) == [o] + objs
  {
    var s := Add(objs, o);
    assert forall j :: 0 <= j < |objs| ==> s[j].id != o.id;
    assert s[|objs|].id == o.id;
    assert IndexOf(s, o.id) == Some(|objs|);
    assert s[..|objs|] == objs;
  }

  /** Removing the bottom object of a stack with distinct identities leaves the rest. */
  lemma RemoveBottom(objs: Objects)
    requires |objs| > 0 && UniqueIds(objs)
    ensures Remove(objs, objs[0].id) == objs[1..]
  {
    assert IndexOf(objs, objs[0].id) == Some(0);
  }
}

=== FILE: seqs.dfy ===
/** Sequence operations shared by the cart, the catalog and the scene:
    `Array.prototype.filter` and the first-occurrence de-duplication of `new Set(...)`. */
module Seqs {

  /** The elements of `s` that satisfy `p`, in their original order. */
  function Filter<T>(s: seq<T>, p: T -> bool): (r: seq<T>)
    ensures |r| <= |s|
    ensures forall i :: 0 <= i < |r| ==> r[i] in s && p(r[i])
    ensures forall i :: 0 <= i < |s| && p(s[i]) ==> s[i] in r
  {
    if |s| == 0 then [] else (if p(s[0]) then [s[0]] else []) + Filter(s[1..], p)
  }

  /** Filtering distributes over concatenation; together with the one-element case this
      says the result is the order-preserving subsequence of the kept elements. */
  lemma {:induction false} FilterConcat<T>(s: seq<T>, t: seq<T>, p: T -> bool)
    ensures Filter(s + t, p) == Filter(s, p) + Filter(t, p)
  {
    if |s| == 0 {
      assert s + t == t;
    } else {
      assert (s + t)[0] == s[0];
      assert (s + t)[1..] == s[1..] + t;
      FilterConcat(s[1..], t, p);
    }
  }

  /** Filtering a single element keeps it exactly when it satisfies `p`. */
  lemma FilterSingleton<T>(x: T, p: T -> bool)
    ensures Filter([x], p) == (if p(x) then [x] else [])
  {
    assert [x][1..] == [];
  }

  /** A filter that every element passes returns the sequence itself. */
  lemma {:induction false} FilterAll<T>(s: seq<T>, p: T -> bool)
    requires forall i :: 0 <= i < |s| ==> p(s[i])
    ensures Filter(s, p) == s
  {
    if |s| > 0 {
      FilterAll(s[1..], p);
    }
  }

  /** A filter that no element passes returns the empty sequence. */
  lemma {:induction false} FilterNone<T>(s: seq<T>, p: T -> bool)
    requires forall i :: 0 <= i < |s| ==> !p(s[i])
    ensures Filter(s, p) == []
  {
    if |s| > 0 {
      FilterNone(s[1..], p);
    }
  }

  /** A filter that refuses exactly the element at `k` returns the sequence without it. */
  lemma FilterDropsOne<T>(s: seq<T>, k: nat, p: T -> bool)
    requires k < |s| && !p(s[k])
    requires forall i :: 0 <= i < |s| && i != k ==> p(s[i])
    ensures Filter(s, p) == s[..k] + s[k + 1..]
  {
    var a, b := s[..k], s[k + 1..];
    assert s == a + [s[k]] + b;
    assert Filter(a, p) == a by {
      assert forall i :: 0 <= i < |a| ==> a[i] == s[i];
      FilterAll(a, p);
    }
    assert Filter(b, p) == b by {
      assert forall i :: 0 <= i < |b| ==> b[i] == s[k + 1 + i];
      FilterAll(b, p);
    }
    assert Filter(a + [s[k]], p) == a by {
      FilterConcat(a, [s[k]], p);
      FilterSingleton(s[k], p);
      assert a + [] == a;
    }
    calc {
      Filter(s, p);
      Filter(a + [s[k]] + b, p);
      { FilterConcat(a + [s[k]], b, p); }
      Filter(a + [s[k]], p) + Filter(b, p);
      a + b;
    }
  }

  predicate NoDuplicates<T(==)>(s: seq<T>) {
    forall i, j :: 0 <= i < j < |s| ==> s[i] != s[j]
  }

  /** Index of the first occurrence of `x` in `s`. */
  function FirstIndex<T(==)>(s: seq<T>, x: T): (k: nat)
    requires x in s
    ensures k < |s| && s[k] == x
    ensures forall j :: 0 <= j < k ==> s[j] != x
  {
    if s[0] == x then 0 else 1 + FirstIndex(s[1..], x)
  }

  /** The distinct elements of `s` in order of first occurrence, as
      `Array.from(new Set(s))` lists them. */
  function Distinct<T(==)>(s: seq<T>): (r: seq<T>)
    ensures forall i :: 0 <= i < |r| ==> r[i] in s
    ensures forall i :: 0 <= i < |s| ==> s[i] in r
    ensures NoDuplicates(r)
    ensures |r| <= |s|
  {
    if |s| == 0 then []
    else
      var init := s[..|s| - 1];
      assert s == init + [s[|s| - 1]];
      var d := Distinct(init);
      if s[|s| - 1] in d then d else d + [s[|s| - 1]]
  }

  /** Distinct lists its elements in the order of their first occurrence in `s`. */
  lemma {:induction false} DistinctFirstOccurrenceOrder<T>(s: seq<T>)
    ensures forall i, j :: 0 <= i < j < |Distinct(s)| ==>
      FirstIndex(s, Distinct(s)[i]) < FirstIndex(s, Distinct(s)[j])
  {
    if |s| > 0 {
      var n := |s|;
      var init := s[..n - 1];
      assert s == init + [s[n - 1]];
      DistinctFirstOccurrenceOrder(init);
      var d := Distinct(init);
      var r := Distinct(s);
      forall y | y in init
        ensures FirstIndex(s, y) == FirstIndex(init, y) < n - 1
      {
        var k := FirstIndex(init, y);
        assert s[k] == y;
        var k' := FirstIndex(s, y);
        assert k' <= k;
        assert init[k'] == y;
      }
      if s[n - 1] !in d {
        assert s[n - 1] !in init;
        assert FirstIndex(s, s[n - 1]) == n - 1;
      }
      forall i, j | 0 <= i < j < |r|
        ensures FirstIndex(s, r[i]) < FirstIndex(s, r[j])
      {
        assert r[i] in init;
        if j < |d| {
          assert r[j] == d[j] && r[i] == d[i];
        }
      }
    }
  }
}

=== FILE: wrappers.dfy ===
/** Optional values: the model's stand-in for JavaScript's `null` and `undefined`. */
module Wrappers {

  datatype Option<+T> = None | Some(value: T) {

    /** The value, or `default` when absent: JavaScript's `x ?? default`. */
    function GetOr(default: T): T {
      match this
      case Some(v) => v
      case None => default
    }
  }
}
